=== FILE: README.md ===
# Wiki filter activity: a Dafny model

The wiki filter activity for Moodle shows the pages of a course wiki to a user
only when one of the user's course roles is associated with one of the page's
tags. A teacher sets up the associations in the activity form, which is
driven by a small script. The server stores them as `(role, tag)` rows. When
a page is shown, a link to a page the user may not see is turned into plain
text, and links to edit pages are removed. Links to other wiki pages are sent
to the activity's own view page.

This project models the core of that behaviour in Dafny and proves properties
of the model:

- `strings.dfy` (`Strings`): PHP's `explode` and `implode` on one-character
  separators, with the round trips between them, and decimal ids with the
  number they denote.
- `association_store.dfy` (`AssociationStore`):
  - the association table and its `role-tag` tokens;
  - inserting and replacing an instance's rows, and deleting an instance;
  - the `GROUP BY role_id` query of `get_wikifilter_associations`.
  The tables are a `Database` class whose methods change them in place.
- `permission.dfy` (`Permission`): the decision `can_user_view_wiki_page`
  takes. It is a loop method with early exit, proved against a predicate,
  and linked to the stored rows.
- `features.dfy` (`Features`): `wikifilter_supports`.
- `page_tags.dfy` (`PageTags`): the `+=` loop of `get_wiki_pages_tags`.
- `link_rewriter.dfy` (`LinkRewriter`):
  - `process_wiki_page_links`: `preg_match_all`, `str_replace` and the
    collapse of neutralised anchors;
  - `format_wiki_page_content`: removal of edit links and rewriting of view
    links;
  - the order `print_wiki_page_content` applies them in.
- `page_links.dfy` (`PageLinks`): `process_wiki_page_links` on a whole
  rendered page with any number of links, to pages the user may or may not
  see.
- `association_editor.dfy` (`AssociationEditor`): the form's script
  (`amd/src/wikifilter.js`). There is one class per script object: the
  table, the role select, the tag select, the modal and the wiki selector.
  Each method's new state is tied to a function on values, and the
  properties are proved about those functions.

Modelling choices:

- Role, tag and page ids are texts of digits, because the PHP code handles
  them as the strings that `explode` and the regular expressions produce.
  `str_replace` compares page URLs as text (lib.php:330). Elsewhere the
  model keys a page's tags by the page id as text (`LinkRewriter.TagsOfPage`),
  so giving `05` and `5` the same tags, as the host's tag lookup by item id
  does, is up to the caller.
- The columns of `wikifilter_associations` are `INTEGER NOT NULL`
  (db/upgrade.php:63-66, with `wiki_id` added at db/upgrade.php:100-109).
  `insert_record` stores a decimal id as its number, so `05` is read back as
  `5` (`AssociationStore.IntegerColumn`). A token without `-` leaves the tag
  null (lib.php:145), and a null or non-numeric id makes the insert throw.
  The model treats any id that is not all digits as a throwing insert. The
  exception ends the loop with the earlier rows stored; it is modelled as
  `ok == false`. In an update the delete has already happened by then
  (lib.php:170-171), and `update_record` is skipped (lib.php:103-109).
- Host lookups become parameters: `is_siteadmin`, `get_user_roles`, the
  page's tags, the site root and the answer to the page-tags request.
- `GROUP_CONCAT` joins the tag ids of a role in table order.
- A PHP array is a sequence of (key, value) pairs in iteration order, so the
  `+=` of `get_wiki_pages_tags` keeps the order of the keys: the old keys
  first, then the new keys of each page in that page's order.
- `wikifilter_delete_instance` removes only the instance record. Its
  association rows stay (lib.php:118-129). A design that cascades the
  delete to the associations is not what the code does, so the model keeps
  the rows, and `Database.DeleteInstance` says so in its contract.
- The regular expressions are modelled as PCRE evaluates them in
  `preg_replace`. At each position PCRE tries a match. On success it emits
  the replacement and resumes after the match; otherwise it keeps one
  character. `.` does not match a line break, because the patterns have no
  `s` flag. Only `\n` is treated as a line break.
- The edit-link pattern has two lazy groups. Trying them once, left to
  right, finds the same match as a backtracking matcher would; this is
  proved in `LinkRewriter.EditMatchIsLeftmostLazy`.
- The view-link pattern of `format_wiki_page_content` captures one digit, so
  only the first digit of a page id belongs to the match and the others are
  kept as text. The result is still the right link (`TrailingDigitKept`).
- `str_replace` in `process_wiki_page_links` replaces the whole URL of a
  denied page everywhere, so it also hits longer ids with the same prefix.
  With page 1 denied, the URL of page 12 becomes `inaccessiblelink2`
  (`PrefixCollision`). The model keeps this behaviour as written.
- A rendered page is a sequence of links, each with the text before it and
  the anchor `<a href="URL">T</a>`, followed by a tail. A view URL holds no
  `"`, `<` or `>`, and every join between these pieces stands next to one
  of those characters. So neither `str_replace`, nor the match scan, nor
  the collapse pass can act across a join, and each works piece by piece.

## Model

| member | source | states |
|---|---|---|
| `Strings.Split` | lib.php:143 | `explode` never returns an empty list: it yields at least one piece |
| `Strings.SplitPieces` | lib.php:143 | no piece of `explode` holds the separator, and a text without the separator comes back whole |
| `Strings.SplitJoin` | lib.php:236 | exploding the `GROUP_CONCAT` of separator-free ids gives back exactly those ids |
| `Strings.JoinSplit` | lib.php:236 | imploding the pieces of an exploded text gives back the text |
| `Strings.DropZeros` | db/upgrade.php:64-66 | a decimal id read back from an INTEGER column: canonical, the same number, and unchanged when already canonical |
| `Strings.LeadingZero` | db/upgrade.php:64-66 | a leading zero does not change the number a digit text denotes |
| `Strings.Join` | lib.php:350 | `GROUP_CONCAT` and `implode`: the pieces with the separator between them (its meaning is stated by `SplitJoin` and `JoinSplit`) |
| `AssociationStore.ParseToken` | lib.php:143-145 | the role and tag of a token hold no `-`; a token has a tag piece iff it holds a `-`, and one without `-` is all role with a null tag |
| `AssociationStore.ParseTokenRoundTrip` | lib.php:143-145 | a token `r-t` built from dash-free ids is read back as role `r` and tag `t` |
| `AssociationStore.IntegerColumn` | db/upgrade.php:64-66 | an INTEGER NOT NULL column keeps a value iff it is a decimal number, as its canonical text with the same value; a canonical value is kept as it is |
| `AssociationStore.EntryOf` | lib.php:143-153 | the row one token stores, present iff the token is storable, with canonical ids and the given wiki and instance |
| `AssociationStore.EntryOfToken` | lib.php:143-153 | a token built from two canonical ids stores exactly those ids |
| `AssociationStore.EntryOfNoDash` | lib.php:143-153 | a token without `-` leaves the tag null, and its insert throws |
| `AssociationStore.EntryOfLeadingZero` | lib.php:143-153 | the token `05-007` stores role `5` and tag `7` |
| `AssociationStore.Inserted` | lib.php:141-154 | the rows the insert loop stores: one per token, in order, up to the first token whose insert throws (stated by `InsertedPrefix`) |
| `AssociationStore.InsertedPrefix` | lib.php:141-154 | the stored rows are one per token from the start, each as `EntryOf` says, up to a token that throws; all tokens are stored iff all are storable |
| `AssociationStore.InsertedUpTo` | lib.php:141-154 | a run of storable tokens that ends at a throwing token or at the end is exactly what the loop stores |
| `AssociationStore.InsertedInstance` | lib.php:152 | every stored row belongs to the instance the tokens were inserted for |
| `AssociationStore.OfInstanceMembers` | lib.php:352 | a row is among the instance's rows exactly when it is stored for that instance |
| `AssociationStore.OfInstance` | lib.php:352 | the `WHERE wikifilter_id = id` filter, in table order (its members are stated by `OfInstanceMembers`) |
| `AssociationStore.OtherInstances` | lib.php:170 | what `delete_records` on the instance leaves, in table order (stated by the lemmas below) |
| `AssociationStore.Replace` | lib.php:170-171 | the content after an update: the other instances' rows, then what the inserts store |
| `AssociationStore.DeleteInstanceRows` | lib.php:170 | deleting an instance's rows keeps every other row, in order, and invents none |
| `AssociationStore.OfInstanceAppend` | lib.php:153 | selecting an instance's rows distributes over appended tables |
| `AssociationStore.OtherInstancesAppend` | lib.php:170 | deleting an instance's rows distributes over appended tables |
| `AssociationStore.OtherInstancesIdempotent` | lib.php:170 | deleting an instance's rows twice is deleting them once |
| `AssociationStore.OfOtherInstances` | lib.php:170 | deleting one instance's rows leaves every other instance's rows as they were |
| `AssociationStore.OfInstanceAll` | lib.php:352 | a table whose rows all belong to the instance is selected whole |
| `AssociationStore.NoOtherRow` | lib.php:170 | a table holding only rows of the instance is emptied by the delete |
| `AssociationStore.NothingLeftOf` | lib.php:104 | after the delete no row of the instance is left |
| `AssociationStore.ReplaceSetsInstance` | lib.php:167-175 | after an update the instance's rows are exactly the rows built from the new tokens, in order |
| `AssociationStore.ReplaceKeepsOtherInstances` | lib.php:167-175 | an update leaves the rows of every other instance unchanged |
| `AssociationStore.ReplaceIdempotent` | lib.php:167-175 | updating twice with the same tokens stores what updating once stores, row ids aside |
| `AssociationStore.TagsOfRole` | lib.php:350 | a role's grouped tag list holds exactly the tags of that role's rows, and is empty iff the role has no row |
| `AssociationStore.Grouped` | lib.php:347-357 | the grouped map has a key for exactly the roles that have a row in the instance |
| `AssociationStore.GroupedRoundTrip` | lib.php:236 | exploding a role's grouped value gives back the tag ids of that role's rows, in order |
| `AssociationStore.TagsOfTokens` | lib.php:139-157 | the rows inserted from well-formed tokens carry, for each role, exactly that role's tag ids, in order |
| `AssociationStore.InsertedTokens` | lib.php:139-157 | tokens of well-formed pairs are all storable and store one row per pair, with that pair's ids |
| `AssociationStore.ReplaceThenGroup` | lib.php:167-175 | update then group: for each role sent, exploding its grouped value gives back the tags sent with it |
| `AssociationStore.TagsForIds` | lib.php:145 | every tag paired with a role in well-formed tokens is a numeric id |
| `AssociationStore.NoRowOf` | lib.php:352 | a table with no row of the instance selects nothing for it |
| `AssociationStore.Database.InsertRecord` | lib.php:153 | `insert_record` of an accepted row: the row goes last under the next auto-increment id |
| `AssociationStore.Database.InsertAssociations` | lib.php:139-157 | true iff every token is `digits-digits`; the rows of the tokens before the first one whose insert throws are appended in order, with ids as the INTEGER columns keep them, fresh row ids and old rows untouched |
| `AssociationStore.Database.UpdateAssociations` | lib.php:167-175 | the instance's rows are deleted first, then inserted as `InsertAssociations` does, so a throwing token leaves only the rows before it; true iff every token is storable |
| `AssociationStore.Database.UpdateInstance` | lib.php:90-110 | no tokens: the instance's rows are deleted; otherwise they are replaced; the instance record is updated only when no insert threw, and only when it exists |
| `AssociationStore.Database.DeleteInstance` | lib.php:118-129 | false when the record is missing; otherwise the record goes and the association rows remain |
| `Permission.CanUserViewWikiPage` | lib.php:224-246 | the loop's answer is the admin flag or some role's grouped tags meeting the page's tags; false for a non-admin with no associations or an untagged page |
| `Permission.RoleGrants` | lib.php:235-237 | a role grants the page when its grouped tag list, exploded on `,`, shares a tag id with the page (stated by `RoleGrantsIff`) |
| `Permission.CanView` | lib.php:226-242 | the decision: admin, or some role of the user grants the page (the loop is proved against it) |
| `Permission.RoleGrantsIff` | lib.php:235-237 | a role grants the page iff one of its stored rows in the instance names one of the page's tags |
| `Permission.CanViewIffSharedTag` | lib.php:226-243 | a user sees a page iff admin or some role of theirs has a row of the instance naming a tag of the page |
| `Permission.NoAssociationsDenies` | lib.php:233-242 | an instance without rows groups to nothing and hides every page from every non-admin |
| `Permission.TeacherStudentScenario` | lib.php:224-246 | teacher role 3 linked to tags 1 and 2 of instance 7: the admin and the teacher see the page, the student role 5 does not |
| `Features.Supports` | lib.php:36-48 | true for the intro, backup and show-description features and null for any other; never false |
| `PageTags.LeftUnion` | lib.php:210 | PHP's array `+`: the left array kept as it is, in its order, as the prefix of the result |
| `PageTags.FreshAppend` | lib.php:210 | the new pairs of a concatenation are those of each part, in order |
| `PageTags.FreshKeys` | lib.php:210 | the new keys of `$b` are its keys that `$a` lacks |
| `PageTags.FreshMembers` | lib.php:210 | a new pair is a pair of `$b` whose key `$a` lacks |
| `PageTags.FreshUnique` | lib.php:210 | the new pairs of an array have distinct keys |
| `PageTags.UniqueAppend` | lib.php:210 | two arrays without a common key concatenate into an array |
| `PageTags.LeftUnionKeys` | lib.php:210 | `$a + $b` has every key of both and no other |
| `PageTags.LeftUnionMembers` | lib.php:210 | a pair of `$a + $b` is a pair of `$a`, or one of `$b` whose key `$a` lacks: the left value wins |
| `PageTags.LeftUnionUnique` | lib.php:210 | `$a + $b` of two arrays is an array |
| `PageTags.Collected` | lib.php:207-212 | `$wikipagestags` after the loop over some pages: the left fold of `+` (stated by the lemmas below) |
| `PageTags.CollectedPrefix` | lib.php:207-212 | the tags of the first pages come first, as they were after those rounds |
| `PageTags.CollectedKeys` | lib.php:207-212 | every tag of every page is collected, and nothing else |
| `PageTags.CollectedUnique` | lib.php:207-212 | collecting arrays gives an array |
| `PageTags.CollectedFirst` | lib.php:207-212 | a tag goes in with its name on the first page that has it |
| `PageTags.CollectedFrom` | lib.php:207-212 | every collected pair comes from the first page that has its tag |
| `PageTags.OnePage` | tests/lib_test.php:62-72 | a single page's tags come back as they are, in their order |
| `PageTags.CollectPagesTags` | lib.php:206-214 | the loop's result is the left fold `Collected` of the pages with `+`, and holds exactly the tags of all pages |
| `LinkRewriter.FindLazy` | lib.php:300 | lazy `.*?` followed by a text: a position it finds lies at or after the start and the text fits before the end |
| `LinkRewriter.FindLazySound` | lib.php:300 | what the lazy search finds is the first occurrence on the same line; when it finds none, the line holds none |
| `LinkRewriter.FindLazyFirst` | lib.php:335 | the first occurrence on the line is exactly what the lazy search finds |
| `LinkRewriter.EditMatchAt` | lib.php:300 | an edit-link match from a position ends after that position and within the text |
| `LinkRewriter.NoFirstNoPair` | lib.php:300 | without `">` on the line after `edit.php`, the edit pattern cannot match however PCRE backtracks |
| `LinkRewriter.NoSecondNoPair` | lib.php:300 | if no `</a>` follows the first `">` on its line, backtracking to a later `">` yields no match either |
| `LinkRewriter.FirstPairLeast` | lib.php:300 | the first `">` and the first `</a>` after it form a match, and no other match ends its groups earlier |
| `LinkRewriter.EditMatchIsLeftmostLazy` | lib.php:300 | the single lazy attempt matches iff some edit anchor exists, and it picks the least `">` and then the least `</a>` |
| `LinkRewriter.RemoveEditFrom` | lib.php:300-303 | the edit pass only removes: its output is never longer than the text it scans |
| `LinkRewriter.RewriteViewFrom` | lib.php:301-304 | the view pass only lengthens: its output is never shorter than the text it scans |
| `LinkRewriter.FormatWikiPageContent` | lib.php:299-307 | the edit pass, then the view pass (stated by the lemmas below) |
| `LinkRewriter.RemoveEditStep` | lib.php:303 | where no edit link starts, the character is kept |
| `LinkRewriter.RemoveEditSkip` | lib.php:303 | text without an edit link is copied unchanged by the edit pass |
| `LinkRewriter.RewriteViewSkip` | lib.php:304 | text without a view link is copied unchanged by the view pass |
| `LinkRewriter.FormatWithoutLinks` | lib.php:299-307 | content with neither pattern anywhere comes back unchanged |
| `LinkRewriter.EditLinkRemoved` | lib.php:303 | an edit link is dropped whole, text included, and the pass resumes after its `</a>` |
| `LinkRewriter.ViewLinkRewritten` | lib.php:304 | a view URL becomes the module's view URL with the same first digit |
| `LinkRewriter.TrailingDigitKept` | lib.php:301-304 | `…view.php?pageid=12` becomes `…wikifilter/view.php?id=M&pageid=12`, the second digit kept as text |
| `LinkRewriter.EditLinkExample` | lib.php:300-303 | `<a href="edit.php?pageid=5">Edit</a>` leaves nothing behind |
| `LinkRewriter.ReplaceAll` | lib.php:330 | `str_replace` with an empty search text changes nothing |
| `LinkRewriter.ReplaceSkip` | lib.php:330 | where the URL does not start, `str_replace` copies the text character by character and goes on with the rest on its own |
| `LinkRewriter.ReplaceAbsent` | lib.php:330 | `str_replace` leaves a text without the searched URL unchanged |
| `LinkRewriter.ReplaceFirst` | lib.php:330 | the first occurrence of the URL becomes the placeholder, the text before it is kept and the text after it is replaced on its own |
| `LinkRewriter.ReplaceSplit` | lib.php:330 | an occurrence with none starting before it splits `str_replace` into the text before it, the replacement and the text after it, each replaced on its own |
| `LinkRewriter.ReplaceOnly` | lib.php:330 | a URL that occurs once is replaced there and the rest is kept |
| `LinkRewriter.ReplaceConcat` | lib.php:330 | when no occurrence straddles the join, `str_replace` on `x + y` is `str_replace` on `x` followed by `str_replace` on `y` |
| `LinkRewriter.ReplaceCut` | lib.php:330 | a join next to a character the searched URL does not hold splits `str_replace` in two |
| `LinkRewriter.ReplaceUrl` | lib.php:330 | in a view URL with id `id`, replacing the URL of id `x` (not a proper prefix of `id`) hits exactly when `x == id` |
| `LinkRewriter.PrefixCollision` | lib.php:320-330 | with page 1 denied, the URL of page 12 becomes `inaccessiblelink2` |
| `LinkRewriter.DigitsEnd` | lib.php:320 | `\d+` takes the longest run of digits |
| `LinkRewriter.MatchesFrom` | lib.php:322-324 | every match is the base URL followed by a numeric page id, with no digit right after it |
| `LinkRewriter.MatchesIds` | lib.php:322-324 | the ids `preg_match_all` captures are those of the scan over the remaining text (`MatchIds`) |
| `LinkRewriter.MatchCut` | lib.php:322-324 | a join next to a non-digit the base URL does not hold splits the captured ids into those of each side |
| `LinkRewriter.MatchUrl` | lib.php:322-324 | a view URL on its own yields exactly its id |
| `LinkRewriter.MatchAbsent` | lib.php:322 | text without the base URL yields no match |
| `LinkRewriter.Collapse` | lib.php:335-336 | the collapse pass only removes: its output is never longer than the text it scans |
| `LinkRewriter.CollapseSkip` | lib.php:336 | where no neutralised anchor starts in the first `j` characters, they are copied and the pass goes on with the rest on its own |
| `LinkRewriter.CollapseAbsent` | lib.php:336 | text in which no neutralised anchor starts is copied unchanged by the collapse pass |
| `LinkRewriter.CollapseKeep` | lib.php:336 | text without `<` is copied and the pass goes on with what follows on its own |
| `LinkRewriter.CollapseHref` | lib.php:336 | `<a href="` is copied when the character after the next 16 is not `"`, so it cannot open a neutralised anchor |
| `LinkRewriter.CollapseNeutralised` | lib.php:335-336 | `<a href="inaccessiblelink">T</a>` at the front becomes `T` for a one-line `T` without `</a>`, and the pass goes on after `</a>` |
| `LinkRewriter.AnchorCollapsed` | lib.php:335-336 | `a<a href="inaccessiblelink">T</a>b` collapses to `aTb` when `a` and `b` hold no neutralised anchor and `T` is one line without `</a>` |
| `LinkRewriter.PlaceholderAnchorCollapsed` | lib.php:335-336 | `<a href="inaccessiblelink">T</a>` becomes `T` for any one-line `T`, markup included, up to the first `</a>` |
| `LinkRewriter.ProcessedContent` | lib.php:316-339 | what `process_wiki_page_links` returns: the neutralised content collapsed (the loop is proved against it) |
| `LinkRewriter.DeniedLinkBecomesText` | lib.php:316-339 | a page's one link, to a page the user may not see, `a<a href="URL">T</a>b`, comes out as `aTb` |
| `LinkRewriter.NeutraliseOne` | lib.php:326-331 | a page whose one match is denied gets that URL replaced everywhere |
| `LinkRewriter.ProcessWikiPageLinks` | lib.php:316-339 | the loop result is the collapse of the content with every denied page's URL replaced, in match order (`PageLinks.PageProcessed`, `DeniedLinkBecomesText` and `ProcessPassThrough` state what that gives) |
| `LinkRewriter.Neutralise` | lib.php:326-331 | the loop over the matches: a denied page's URL replaced everywhere, in match order, a viewable one left alone |
| `LinkRewriter.NeutraliseViewable` | lib.php:326-331 | URLs of pages the user may see are not touched |
| `LinkRewriter.ProcessPassThrough` | lib.php:316-339 | when every linked page is viewable and no neutralised anchor is present, the content is unchanged |
| `LinkRewriter.RenderedLinks` | lib.php:282-283 | `print_wiki_page_content` neutralises denied links first and formats the content after |
| `LinkRewriter.AdminKeepsLinks` | lib.php:227-228 | a site admin's page keeps every link |
| `PageLinks.PageProcessed` | lib.php:316-339 | on a page with any number of links, each link to a page the user may see is kept whole and each other link becomes its text, everything else unchanged |
| `PageLinks.ViewBaseShape` | lib.php:317-320 | the view URL of a site root without `"`, `<` or `>` holds none of them and ends in `=` |
| `PageLinks.PageMatches` | lib.php:322-324 | `preg_match_all` on the page captures the links' ids, in page order |
| `PageLinks.PageMatchIds` | lib.php:322 | the match scan over the page yields the links' ids, in page order |
| `PageLinks.SegmentMatches` | lib.php:322 | one link contributes exactly its id, and the scan goes on after its `</a>` |
| `PageLinks.NeutraliseInPage` | lib.php:326-332 | the loop neutralises exactly the links whose ids it finds denied |
| `PageLinks.ReplaceInPage` | lib.php:330 | replacing one prefix-free id's URL neutralises every link to that page and nothing else |
| `PageLinks.SegmentReplaced` | lib.php:330 | `str_replace` on one link replaces its URL when the id matches, and goes on with the rest of the page on its own |
| `PageLinks.TargetReplaced` | lib.php:330 | an `href` target is replaced exactly when it is the denied page's URL |
| `PageLinks.PlainKept` | lib.php:330 | text without the base URL is not touched by `str_replace` |
| `PageLinks.DeniedIds` | lib.php:326-328 | an id is replaced iff some match has it and the user may not see its page |
| `PageLinks.CollapsePage` | lib.php:335-336 | the collapse pass turns a page whose denied links are neutralised into what the user is meant to see |
| `PageLinks.SegmentCollapsed` | lib.php:335-336 | a neutralised link becomes its text and any other link is kept, the rest collapsed on its own |
| `AssociationEditor.IndexOf` | amd/src/wikifilter.js:88 | the position of the first occurrence of a character |
| `AssociationEditor.StripMark` | amd/src/wikifilter.js:88 | `replace('×', '')` removes the first mark only; text without a mark is unchanged |
| `AssociationEditor.RowOf` | amd/src/wikifilter.js:78-98 | a row has the chosen role, one badge per selected tag in order, and one `roleId-tagId` value per badge |
| `AssociationEditor.RowTokensParse` | amd/src/wikifilter.js:91 | the server reads each hidden value back as the row's role and the badge's tag |
| `AssociationEditor.WithRow` | amd/src/wikifilter.js:44-56 | one row more, the new one last, the others unchanged, no placeholder left |
| `AssociationEditor.WithModified` | amd/src/wikifilter.js:57-60 | same row count; the rows of the chosen role are overwritten in place, the others unchanged |
| `AssociationEditor.WithoutRow` | amd/src/wikifilter.js:61-68 | exactly that row goes, the others keep their order, and a valid table stays valid |
| `AssociationEditor.WithoutRowMultiset` | amd/src/wikifilter.js:61-68 | the rows left plus the deleted row are exactly the rows before |
| `AssociationEditor.Emptied` | amd/src/wikifilter.js:69-77 | a placeholder is shown afterwards; a valid table becomes one placeholder and no row |
| `AssociationEditor.EmptiedIdempotent` | amd/src/wikifilter.js:70 | emptying twice is emptying once |
| `AssociationEditor.ModifyKeepsRoles` | amd/src/wikifilter.js:336-338 | modifying a present role keeps the set of roles in the table |
| `AssociationEditor.TokensAppend` | amd/src/wikifilter.js:91 | serialising two lists of pairs is serialising each, one after the other |
| `AssociationEditor.FormTokens` | amd/src/wikifilter.js:85-92 | the values of the hidden `associations[]` inputs in document order: what the form posts |
| `AssociationEditor.FormTokensArePairs` | amd/src/wikifilter.js:85-92 | what the form posts is the serialisation of the table's (role, tag) pairs in document order |
| `AssociationEditor.TagsForAppend` | amd/src/wikifilter.js:91 | the tags of a role in two lists of pairs are those of each, in order |
| `AssociationEditor.TagsForOneRole` | amd/src/wikifilter.js:91 | all the pairs of one role give all their tags, in order |
| `AssociationEditor.TagsForOtherRole` | amd/src/wikifilter.js:91 | pairs of other roles give no tag |
| `AssociationEditor.TablePairsOfRow` | amd/src/wikifilter.js:85-92 | with one row per role, a role's posted tags are its row's badges |
| `AssociationEditor.TablePairsWithoutRole` | amd/src/wikifilter.js:85-92 | a role without a row has no posted tag |
| `AssociationEditor.TablePairsWellFormed` | amd/src/wikifilter.js:91 | numeric ids in the table give well-formed posted pairs |
| `AssociationEditor.TablePairsHasRole` | amd/src/wikifilter.js:91 | a row with a badge posts a pair for its role |
| `AssociationEditor.SavedTableGroupsBack` | amd/src/wikifilter.js:85-92 | saving the form then grouping gives back, for each row's role, exactly its badges' tag ids |
| `AssociationEditor.TablePairsRoles` | amd/src/wikifilter.js:85-92 | every role the form posts is that of a row with at least one badge |
| `AssociationEditor.SavedTableRoles` | amd/src/wikifilter.js:85-92 | after saving the form, the grouped associations have a key for a role iff some row has that role and a badge; no old role of the instance is left |
| `AssociationEditor.Keep` | amd/src/wikifilter.js:139-141 | `deleteOption` keeps only options whose value was not deleted |
| `AssociationEditor.KeepKeepsOthers` | amd/src/wikifilter.js:139-141 | no option with another value is lost |
| `AssociationEditor.KeepNone` | amd/src/wikifilter.js:122 | deleting no value keeps every option |
| `AssociationEditor.KeepTwice` | amd/src/wikifilter.js:122-125 | deleting values one after the other is deleting them all at once |
| `AssociationEditor.FirstWith` | amd/src/wikifilter.js:133-135 | the position of the first option with the value: it has the value and no earlier option does |
| `AssociationEditor.DropFirst` | amd/src/wikifilter.js:133-135 | exactly the first option of the selected value goes, the others keep their order; nothing changes when there is none |
| `AssociationEditor.NameOf` | amd/src/wikifilter.js:130-132 | the chosen option's text belongs to an option of that value |
| `AssociationEditor.SelectedOf` | amd/src/wikifilter.js:365 | the selection area shows selected options only, and is non-empty iff some option is selected |
| `AssociationEditor.AssociationsList.BuildRowData` | amd/src/wikifilter.js:78-98 | the badge loop builds exactly the row `RowOf` describes |
| `AssociationEditor.AssociationsList.AddRow` | amd/src/wikifilter.js:44-56 | the table becomes `WithRow` of the old one |
| `AssociationEditor.AssociationsList.ModifyRow` | amd/src/wikifilter.js:57-60 | the table becomes `WithModified` of the old one |
| `AssociationEditor.AssociationsList.DeleteRow` | amd/src/wikifilter.js:61-68 | the table becomes `WithoutRow` of the old one |
| `AssociationEditor.AssociationsList.Empty` | amd/src/wikifilter.js:69-77 | the table becomes `Emptied` of the old one |
| `AssociationEditor.AssociationRoleSelect.SelectedOption` | amd/src/wikifilter.js:130-132 | `getSelectedOption`: the value and the text of an option of that value |
| `AssociationEditor.AssociationRoleSelect.SetValue` | amd/src/wikifilter.js:127-129 | the select's value becomes the given one, options and lock unchanged |
| `AssociationEditor.AssociationRoleSelect.AddOption` | amd/src/wikifilter.js:136-138 | the option goes last in the pool |
| `AssociationEditor.AssociationRoleSelect.DeleteOption` | amd/src/wikifilter.js:139-141 | every option of that value leaves the pool |
| `AssociationEditor.AssociationRoleSelect.DeleteSelectedOption` | amd/src/wikifilter.js:133-135 | the selected option leaves the pool |
| `AssociationEditor.AssociationRoleSelect.ShowInEditMode` | amd/src/wikifilter.js:114-118 | the row's role is offered, chosen and locked |
| `AssociationEditor.AssociationRoleSelect.ShowInAddMode` | amd/src/wikifilter.js:119-126 | the select is unlocked and every role of the table leaves the pool |
| `AssociationEditor.AssociationTagsSelect.Badges` | amd/src/wikifilter.js:365 | the badges the autocomplete shows: the selected options, in option order |
| `AssociationEditor.AssociationTagsSelect.SelectOption` | amd/src/wikifilter.js:165-167 | the tag of that value is selected as well, options unchanged |
| `AssociationEditor.AssociationTagsSelect.UnselectOptions` | amd/src/wikifilter.js:168-170 | no tag is selected, options unchanged |
| `AssociationEditor.AssociationTagsSelect.ShowInEditMode` | amd/src/wikifilter.js:156-164 | the row's tags are selected, the options unchanged |
| `AssociationEditor.AssociationTagsSelect.LoadOptions` | amd/src/wikifilter.js:182-189 | the options become exactly the answer's tags, none selected |
| `AssociationEditor.AssociationTagsSelect.Reset` | amd/src/wikifilter.js:190-193 | no tag is selected, the options unchanged |
| `AssociationEditor.AssociationsEditor.Validate` | amd/src/wikifilter.js:362-371 | false iff no tag is selected, and the error shows exactly then |
| `AssociationEditor.AssociationsEditor.ShowModal` | amd/src/wikifilter.js:228-256 | add mode empties the pool of table roles; edit mode locks the row's role and selects the row's tags |
| `AssociationEditor.AssociationsEditor.HideModal` | amd/src/wikifilter.js:257-268 | back to add mode, no error, no tag selected |
| `AssociationEditor.AssociationsEditor.AddClicked` | amd/src/wikifilter.js:283-322 | invalid: only the error shows; valid: a row for the chosen role goes last, the role leaves the pool, the modal closes, the role lock and the tag options stay |
| `AssociationEditor.AssociationsEditor.ModifyClicked` | amd/src/wikifilter.js:323-348 | invalid: only the error shows; valid: the chosen role's rows get the selected tags, row count unchanged, role select and tag options untouched |
| `AssociationEditor.AssociationsEditor.DeleteClicked` | amd/src/wikifilter.js:349-361 | exactly that row goes and its role returns to the pool; the role select's value and lock stay |
| `AssociationEditor.WikifilterEditor.WikiChanged` | amd/src/wikifilter.js:389-405 | success: the table is emptied and the tag options become the answer; failure: nothing changes |

## Left out

- `wikifilter_add_instance` (lib.php:61-78) is the record insert plus the `wikifilter_insert_associations` call modelled above; the insert of the instance record itself is host database work.
- The host calls in `get_wiki_pages_tags` (wiki, course module, group, subwiki and page list lookups) are not modelled; the page tag arrays are an input of `PageTags.CollectPagesTags`.
- `print_wiki_page_content`: the cache refresh, `file_rewrite_pluginfile_urls`, `format_text`, the output and the page-view counter are host calls. Only the order of the two rewrite passes is modelled (`LinkRewriter.RenderedLinks`).
- `moodle_url(...)->out(false)` is taken to give the site root, then `/mod/wiki/view.php?pageid=`. `preg_quote` and the `|` pattern delimiter are assumed not to change that text.
- The `group_concat_max_len` truncation of `GROUP_CONCAT` is not modelled. Nor is any database order other than table order.
- The time stamps `timecreated` and `timemodified` are not modelled, and neither is any instance field other than its wiki.
- `AssociationStore.Database.UpdateInstance`: the result of `update_record` is modelled as true when no insert threw. A failing host update is not modelled.
- `AssociationStore.Database.InsertAssociations`: the `INTEGER(10)` range of the columns is not modelled, so an id too large for the column is stored as its number. Which texts the database driver accepts as numbers depends on the driver; the model accepts exactly the texts of decimal digits.
- The transaction of the form save is not modelled: rows stored before a throwing insert stay stored, and no rollback undoes the delete of an update.
- `LinkRewriter.ProcessWikiPageLinks`: what the result means is proved (`PageLinks.PageProcessed`) for pages built from anchors `<a href="URL">T</a>` where no linked id is a proper prefix of another, the text around the anchors holds no view URL and no neutralised anchor, each `T` is one line without `</a>`, and the site root holds no `"`, `<` or `>`. Pages with prefix-colliding ids are not covered, because `str_replace` then also hits the longer id (`PrefixCollision`); anchors with other attributes are not covered either.
- The DOM is not modelled, beyond the state listed at the top of `association_editor.dfy`. That leaves out the HTML markup of badges and hidden inputs, the hidden classes of titles and buttons, Bootstrap modal events and the autocomplete widget.
- The modal's `hidden` event is taken to follow the `hide` call of the add and modify buttons at once. Focus handlers that clear the error are not modelled.
- The browser picks a new value when the selected role option is removed. That is not modelled: the select's value stays as it was.
- The badge text is the option's text. The autocomplete's own markup around a badge is not part of this model.
- The order in which `$.each` visits the answer's keys is taken as the order of the answer's list.
- The AJAX call, `str.get_strings` and the rebuilding of the autocomplete are asynchronous UI plumbing and are not modelled. So is a late answer racing another one.
- `mod_form.php`, `view.php`, `index.php`, `externallib.php`, the backup code, the upgrade steps (only the column types of db/upgrade.php are used) and the language files are not part of this model.

=== FILE: association_editor.dfy ===
/**
 * The association editor of the module form (amd/src/wikifilter.js). The
 * page's DOM is abstracted to the state the script reads and writes: the
 * table rows with their badges and hidden `associations[]` values, the
 * "no associations" placeholder rows, the role select (its options, value
 * and disabled flag), the tag select (its options and which are selected),
 * the modal's mode and its error flag.
 *
 * Each JavaScript object becomes a class whose methods change its fields;
 * each change is specified by a function on a value of the state (Table,
 * the option filters), and the properties are proved about those.
 */
module AssociationEditor {
  import opened Strings
  import opened AssociationStore
  import opened Wrappers

  /** An `<option>` of the role select. */
  datatype RoleOption = RoleOption(id: Text, name: Text)

  /** An `<option>` of the tag select, and a tag badge in the table. */
  datatype TagOption = TagOption(id: Text, text: Text)

  /**
   * What `buildRowData` produces and `fillRow` writes into a row: the role,
   * the tag badges and the values of the row's hidden `associations[]`
   * inputs.
   */
  datatype RowData = RowData(roleId: Text, roleName: Text, badges: seq<TagOption>, tokens: seq<Text>)

  // ---------------------------------------------------------------------
  // Building a row
  // ---------------------------------------------------------------------

  /** The close glyph the autocomplete puts in a badge. */
  const Mark: char := '×'

  /** The position of the first `c` in `s`. */
  function IndexOf(s: Text, c: char): (k: nat)
    requires c in s
    ensures k < |s| && s[k] == c && c !in s[..k]
  {
    if s[0] == c then 0
    else
      assert s == [s[0]] + s[1..];
      var k := IndexOf(s[1..], c);
      assert s[..k + 1] == [s[0]] + s[1..][..k];
      k + 1
  }

  /** JavaScript's `text.replace('×', '')`: the first mark goes, any later one stays. */
  function StripMark(s: Text): (r: Text)
    ensures Mark !in s ==> r == s
    ensures Mark in s ==> r == s[..IndexOf(s, Mark)] + s[IndexOf(s, Mark) + 1..]
  {
    if s == [] then []
    else if s[0] == Mark then s[1..]
    else
      assert s == [s[0]] + s[1..];
      var r := [s[0]] + StripMark(s[1..]);
      assert Mark in s ==> s[..IndexOf(s, Mark)] == [s[0]] + s[1..][..IndexOf(s[1..], Mark)];
      r
  }

  /** The row's hidden values say, in badge order, `roleId-tagId` for each of its badges. */
  predicate Serialised(row: RowData) {
    && |row.tokens| == |row.badges|
    && forall i :: 0 <= i < |row.badges| ==> row.tokens[i] == Token(row.roleId, row.badges[i].id)
  }

  /** `buildRowData(role, badges)`: one badge and one hidden value per selected tag. */
  function RowOf(role: RoleOption, selected: seq<TagOption>): (row: RowData)
    ensures Serialised(row)
    ensures row.roleId == role.id && row.roleName == role.name
    ensures |row.badges| == |selected|
    ensures forall i :: 0 <= i < |selected| ==> row.badges[i].id == selected[i].id
  {
    RowData(role.id, role.name,
      seq(|selected|, i requires 0 <= i < |selected| => TagOption(selected[i].id, StripMark(selected[i].text))),
      seq(|selected|, i requires 0 <= i < |selected| => Token(role.id, selected[i].id)))
  }

  /** The tag ids of some badges. */
  function BadgeIds(badges: seq<TagOption>): set<Text> {
    set b | b in badges :: b.id
  }

  /** The tag ids of some badges, in order. */
  function IdsOf(badges: seq<TagOption>): seq<Text> {
    seq(|badges|, i requires 0 <= i < |badges| => badges[i].id)
  }

  /**
   * The server reads each hidden value back as the row's role and the
   * badge's tag, provided both are numeric ids.
   */
  lemma RowTokensParse(role: RoleOption, selected: seq<TagOption>, i: nat)
    requires IsId(role.id) && i < |selected| && IsId(selected[i].id)
    ensures ParseToken(RowOf(role, selected).tokens[i]) == (role.id, Some(selected[i].id))
  {
    IdHasNoSeparator(role.id, '-');
    IdHasNoSeparator(selected[i].id, '-');
    ParseTokenRoundTrip(role.id, selected[i].id);
  }

  // ---------------------------------------------------------------------
  // The table
  // ---------------------------------------------------------------------

  /** The table body: its rows and how many "no associations" rows it shows. */
  datatype Table = Table(rows: seq<RowData>, placeholders: nat)

  /** One placeholder row when the table has no rows, none otherwise. */
  predicate TableValid(t: Table) {
    if t.rows == [] then t.placeholders == 1 else t.placeholders == 0
  }

  /** `addRow`: the new row goes last and every placeholder goes. */
  function WithRow(t: Table, row: RowData): (r: Table)
    ensures TableValid(r)
    ensures |r.rows| == |t.rows| + 1 && r.rows[|t.rows|] == row && r.rows[..|t.rows|] == t.rows
  {
    Table(t.rows + [row], 0)
  }

  /** `modifyRow` on the rows whose role is `row.roleId`: those are overwritten where they stand. */
  function WithModified(t: Table, row: RowData): (r: Table)
    ensures |r.rows| == |t.rows| && r.placeholders == t.placeholders
    ensures forall i :: 0 <= i < |t.rows| && t.rows[i].roleId == row.roleId ==> r.rows[i] == row
    ensures forall i :: 0 <= i < |t.rows| && t.rows[i].roleId != row.roleId ==> r.rows[i] == t.rows[i]
  {
    Table(seq(|t.rows|, i requires 0 <= i < |t.rows| => if t.rows[i].roleId == row.roleId then row else t.rows[i]),
      t.placeholders)
  }

  /** `deleteRow`: the row goes; a placeholder is added when no row is left. */
  function WithoutRow(t: Table, i: nat): (r: Table)
    requires i < |t.rows|
    ensures |r.rows| == |t.rows| - 1
    ensures forall j :: 0 <= j < i ==> r.rows[j] == t.rows[j]
    ensures forall j :: i <= j < |r.rows| ==> r.rows[j] == t.rows[j + 1]
    ensures TableValid(t) ==> TableValid(r)
  {
    var rows := t.rows[..i] + t.rows[i + 1..];
    Table(rows, if rows == [] then t.placeholders + 1 else t.placeholders)
  }

  /** Deleting a row removes that one row and keeps every other. */
  lemma WithoutRowMultiset(t: Table, i: nat)
    requires i < |t.rows|
    ensures multiset(WithoutRow(t, i).rows) + multiset{t.rows[i]} == multiset(t.rows)
  {
    assert t.rows == t.rows[..i] + [t.rows[i]] + t.rows[i + 1..];
  }

  /** `empty`: unless a placeholder is shown already, every row goes and one placeholder comes. */
  function Emptied(t: Table): (r: Table)
    ensures r.placeholders > 0
    ensures TableValid(t) ==> r == Table([], 1)
  {
    if t.placeholders == 0 then Table([], 1) else t
  }

  lemma EmptiedIdempotent(t: Table)
    ensures Emptied(Emptied(t)) == Emptied(t)
  {
  }

  /** Replacing a row's data keeps the set of roles in the table. */
  lemma ModifyKeepsRoles(t: Table, row: RowData)
    requires exists i :: 0 <= i < |t.rows| && t.rows[i].roleId == row.roleId
    ensures RolesOfRows(WithModified(t, row).rows) == RolesOfRows(t.rows)
  {
    var r := WithModified(t, row);
    forall x | x in RolesOfRows(t.rows) ensures x in RolesOfRows(r.rows) {
      var i :| 0 <= i < |t.rows| && t.rows[i].roleId == x;
      assert r.rows[i].roleId == x;
    }
  }

  /** The role ids of some rows. */
  function RolesOfRows(rows: seq<RowData>): set<Text> {
    set i | 0 <= i < |rows| :: rows[i].roleId
  }

  /** The values of every hidden `associations[]` input, in document order: what the form posts. */
  function FormTokens(rows: seq<RowData>): seq<Text> {
    if rows == [] then [] else rows[0].tokens + FormTokens(rows[1..])
  }

  /** The (role, tag) pairs of some rows, in document order. */
  function TablePairs(rows: seq<RowData>): seq<(Text, Text)> {
    if rows == [] then [] else RowPairs(rows[0]) + TablePairs(rows[1..])
  }

  function RowPairs(row: RowData): seq<(Text, Text)> {
    seq(|row.badges|, i requires 0 <= i < |row.badges| => (row.roleId, row.badges[i].id))
  }

  lemma TokensAppend(a: seq<(Text, Text)>, b: seq<(Text, Text)>)
    ensures Tokens(a + b) == Tokens(a) + Tokens(b)
  {
    assert forall i :: 0 <= i < |a + b| ==> Tokens(a + b)[i] == (Tokens(a) + Tokens(b))[i];
  }

  /** What the form posts is the serialisation of the table's pairs. */
  lemma {:induction false} FormTokensArePairs(rows: seq<RowData>)
    requires forall k :: 0 <= k < |rows| ==> Serialised(rows[k])
    ensures FormTokens(rows) == Tokens(TablePairs(rows))
    decreases |rows|
  {
    if rows != [] {
      FormTokensArePairs(rows[1..]);
      TokensAppend(RowPairs(rows[0]), TablePairs(rows[1..]));
      assert Serialised(rows[0]);
      assert rows[0].tokens == Tokens(RowPairs(rows[0]));
    }
  }

  lemma {:induction false} TagsForAppend(a: seq<(Text, Text)>, b: seq<(Text, Text)>, roleId: Text)
    ensures TagsFor(a + b, roleId) == TagsFor(a, roleId) + TagsFor(b, roleId)
    decreases |a|
  {
    if a != [] {
      assert (a + b)[0] == a[0] && (a + b)[1..] == a[1..] + b;
      TagsForAppend(a[1..], b, roleId);
      var h := if a[0].0 == roleId then [a[0].1] else [];
      assert TagsFor(a + b, roleId) == h + TagsFor(a[1..] + b, roleId);
      assert TagsFor(a, roleId) == h + TagsFor(a[1..], roleId);
    } else {
      assert a + b == b;
    }
  }

  lemma {:induction false} TagsForOneRole(pairs: seq<(Text, Text)>, roleId: Text)
    requires forall i :: 0 <= i < |pairs| ==> pairs[i].0 == roleId
    ensures TagsFor(pairs, roleId) == seq(|pairs|, i requires 0 <= i < |pairs| => pairs[i].1)
    decreases |pairs|
  {
    if pairs != [] {
      TagsForOneRole(pairs[1..], roleId);
    }
  }

  lemma {:induction false} TagsForOtherRole(pairs: seq<(Text, Text)>, roleId: Text)
    requires forall i :: 0 <= i < |pairs| ==> pairs[i].0 != roleId
    ensures TagsFor(pairs, roleId) == []
    decreases |pairs|
  {
    if pairs != [] {
      TagsForOtherRole(pairs[1..], roleId);
    }
  }

  /** Each role is in one row of the table. */
  predicate DistinctRoles(rows: seq<RowData>) {
    forall j, k :: 0 <= j < k < |rows| ==> rows[j].roleId != rows[k].roleId
  }

  /** With distinct roles, the pairs of a role are those of its row. */
  lemma {:induction false} TablePairsOfRow(rows: seq<RowData>, k: nat)
    requires k < |rows| && DistinctRoles(rows)
    ensures TagsFor(TablePairs(rows), rows[k].roleId) == IdsOf(rows[k].badges)
    decreases |rows|
  {
    var roleId := rows[k].roleId;
    TagsForAppend(RowPairs(rows[0]), TablePairs(rows[1..]), roleId);
    if k == 0 {
      TagsForOneRole(RowPairs(rows[0]), roleId);
      TablePairsWithoutRole(rows[1..], roleId);
    } else {
      TagsForOtherRole(RowPairs(rows[0]), roleId);
      TablePairsOfRow(rows[1..], k - 1);
    }
  }

  lemma {:induction false} TablePairsWithoutRole(rows: seq<RowData>, roleId: Text)
    requires forall k :: 0 <= k < |rows| ==> rows[k].roleId != roleId
    ensures TagsFor(TablePairs(rows), roleId) == []
    decreases |rows|
  {
    if rows != [] {
      TagsForAppend(RowPairs(rows[0]), TablePairs(rows[1..]), roleId);
      TagsForOtherRole(RowPairs(rows[0]), roleId);
      TablePairsWithoutRole(rows[1..], roleId);
    }
  }

  /**
   * Every role and tag id in the table is a database id as the server
   * prints it into the option lists.
   */
  predicate IdsWellFormed(rows: seq<RowData>) {
    forall k :: 0 <= k < |rows| ==> IsCanonicalId(rows[k].roleId) && forall i :: 0 <= i < |rows[k].badges| ==> IsCanonicalId(rows[k].badges[i].id)
  }

  lemma {:induction false} TablePairsWellFormed(rows: seq<RowData>)
    requires IdsWellFormed(rows)
    ensures WellFormed(TablePairs(rows))
    decreases |rows|
  {
    if rows != [] {
      TablePairsWellFormed(rows[1..]);
    }
  }

  lemma {:induction false} TablePairsHasRole(rows: seq<RowData>, k: nat)
    requires k < |rows| && |rows[k].badges| > 0
    ensures exists i :: 0 <= i < |TablePairs(rows)| && TablePairs(rows)[i].0 == rows[k].roleId
    decreases |rows|
  {
    var head := RowPairs(rows[0]);
    assert TablePairs(rows) == head + TablePairs(rows[1..]);
    if k == 0 {
      assert TablePairs(rows)[0] == head[0];
    } else {
      TablePairsHasRole(rows[1..], k - 1);
      var i :| 0 <= i < |TablePairs(rows[1..])| && TablePairs(rows[1..])[i].0 == rows[k].roleId;
      assert TablePairs(rows)[|head| + i] == TablePairs(rows[1..])[i];
    }
  }

  /**
   * Saving the form: after the instance's rows are replaced by what the
   * table posts, the grouped associations give back, for each row's role,
   * exactly that row's tag ids in badge order. No insert of the save throws.
   */
  lemma SavedTableGroupsBack(c: seq<Entry>, id: nat, wikiId: nat, rows: seq<RowData>, k: nat)
    requires forall j :: 0 <= j < |rows| ==> Serialised(rows[j])
    requires DistinctRoles(rows) && IdsWellFormed(rows)
    requires k < |rows| && |rows[k].badges| > 0
    ensures AllStorable(FormTokens(rows))
    ensures rows[k].roleId in Grouped(Replace(c, id, wikiId, FormTokens(rows)), id)
    ensures Split(Grouped(Replace(c, id, wikiId, FormTokens(rows)), id)[rows[k].roleId], ',') == IdsOf(rows[k].badges)
  {
    FormTokensArePairs(rows);
    TablePairsWellFormed(rows);
    TablePairsHasRole(rows, k);
    TablePairsOfRow(rows, k);
    InsertedTokens(TablePairs(rows), id, wikiId);
    ReplaceThenGroup(c, id, wikiId, TablePairs(rows), rows[k].roleId);
  }

  /** Every role the table posts belongs to a row with at least one badge. */
  lemma {:induction false} TablePairsRoles(rows: seq<RowData>, i: nat)
    requires i < |TablePairs(rows)|
    ensures exists k :: 0 <= k < |rows| && rows[k].roleId == TablePairs(rows)[i].0 && |rows[k].badges| > 0
    decreases |rows|
  {
    assert rows != [];
    var head := RowPairs(rows[0]);
    assert TablePairs(rows) == head + TablePairs(rows[1..]);
    if i < |head| {
      assert TablePairs(rows)[i] == head[i];
    } else {
      assert TablePairs(rows)[i] == TablePairs(rows[1..])[i - |head|];
      TablePairsRoles(rows[1..], i - |head|);
      var k :| 0 <= k < |rows[1..]| && rows[1..][k].roleId == TablePairs(rows[1..])[i - |head|].0 && |rows[1..][k].badges| > 0;
      assert rows[1..][k] == rows[k + 1];
    }
  }

  /**
   * Saving the form, the other direction: after the save, the grouped
   * associations have a key for a role exactly when some row of the table
   * has that role and at least one badge. No role of the instance's old rows
   * is left over.
   */
  lemma SavedTableRoles(c: seq<Entry>, id: nat, wikiId: nat, rows: seq<RowData>)
    requires forall j :: 0 <= j < |rows| ==> Serialised(rows[j])
    requires IdsWellFormed(rows)
    ensures forall r :: r in Grouped(Replace(c, id, wikiId, FormTokens(rows)), id) <==>
      exists k :: 0 <= k < |rows| && rows[k].roleId == r && |rows[k].badges| > 0
  {
    var pairs := TablePairs(rows);
    var after := Replace(c, id, wikiId, FormTokens(rows));
    var stored := Inserted(Tokens(pairs), id, wikiId);
    FormTokensArePairs(rows);
    TablePairsWellFormed(rows);
    InsertedTokens(pairs, id, wikiId);
    ReplaceSetsInstance(c, id, wikiId, FormTokens(rows));
    OfInstanceMembers(after, id);
    forall r | r in Grouped(after, id)
      ensures exists k :: 0 <= k < |rows| && rows[k].roleId == r && |rows[k].badges| > 0
    {
      var e :| e in after && e.wikifilterId == id && e.roleId == r;
      assert e in stored;
      var i :| 0 <= i < |stored| && stored[i] == e;
      TablePairsRoles(rows, i);
    }
    forall r | exists k :: 0 <= k < |rows| && rows[k].roleId == r && |rows[k].badges| > 0
      ensures r in Grouped(after, id)
    {
      var k :| 0 <= k < |rows| && rows[k].roleId == r && |rows[k].badges| > 0;
      TablePairsHasRole(rows, k);
      var i :| 0 <= i < |pairs| && pairs[i].0 == r;
      assert stored[i] in OfInstance(after, id);
    }
  }

  // ---------------------------------------------------------------------
  // The option lists
  // ---------------------------------------------------------------------

  /** The options whose value is not in `gone`, in order: `deleteOption` for each id of `gone`. */
  function Keep(opts: seq<RoleOption>, gone: set<Text>): (r: seq<RoleOption>)
    ensures |r| <= |opts|
    ensures forall o :: o in r ==> o in opts && o.id !in gone
  {
    if opts == [] then []
    else (if opts[0].id in gone then [] else [opts[0]]) + Keep(opts[1..], gone)
  }

  /** No option with a value outside `gone` is lost. */
  lemma {:induction false} KeepKeepsOthers(opts: seq<RoleOption>, gone: set<Text>, o: RoleOption)
    requires o in opts && o.id !in gone
    ensures o in Keep(opts, gone)
    decreases |opts|
  {
    if opts[0] != o {
      KeepKeepsOthers(opts[1..], gone, o);
    }
  }

  /** Deleting no value keeps every option. */
  lemma {:induction false} KeepNone(opts: seq<RoleOption>)
    ensures Keep(opts, {}) == opts
    decreases |opts|
  {
    if opts != [] {
      KeepNone(opts[1..]);
      assert opts == [opts[0]] + opts[1..];
    }
  }

  /** Deleting the values one after the other is deleting them all at once. */
  lemma {:induction false} KeepTwice(opts: seq<RoleOption>, a: set<Text>, b: set<Text>)
    ensures Keep(Keep(opts, a), b) == Keep(opts, a + b)
    decreases |opts|
  {
    if opts != [] {
      KeepTwice(opts[1..], a, b);
      var head := if opts[0].id in a then [] else [opts[0]];
      var rest := Keep(opts[1..], a);
      assert Keep(opts, a) == head + rest;
      if opts[0].id !in a {
        assert (head + rest)[1..] == rest;
      } else {
        assert head + rest == rest;
      }
    }
  }

  /** The position of the first option with value `value`. */
  function FirstWith(opts: seq<RoleOption>, value: Text): (k: nat)
    requires exists o :: o in opts && o.id == value
    ensures k < |opts| && opts[k].id == value
    ensures forall j :: 0 <= j < k ==> opts[j].id != value
  {
    if opts[0].id == value then 0
    else
      assert forall o :: o in opts && o != opts[0] ==> o in opts[1..];
      FirstWith(opts[1..], value) + 1
  }

  /** `option:selected` removed: the first option with the select's value. */
  function DropFirst(opts: seq<RoleOption>, value: Text): (r: seq<RoleOption>)
    ensures (forall o :: o in opts ==> o.id != value) ==> r == opts
    ensures (exists o :: o in opts && o.id == value) ==> r == opts[..FirstWith(opts, value)] + opts[FirstWith(opts, value) + 1..]
    ensures multiset(r) <= multiset(opts)
    ensures forall o :: o in opts && o.id != value ==> o in r
  {
    if opts == [] then []
    else if opts[0].id == value then
      assert opts == [opts[0]] + opts[1..];
      opts[1..]
    else
      assert opts == [opts[0]] + opts[1..];
      var rest := DropFirst(opts[1..], value);
      DropFirstStep(opts, value, rest);
      [opts[0]] + rest
  }

  /** Past an option of another value, the first option with the value sits one place further on. */
  lemma DropFirstStep(opts: seq<RoleOption>, value: Text, rest: seq<RoleOption>)
    requires opts != [] && opts[0].id != value
    requires (exists o :: o in opts[1..] && o.id == value) ==>
      rest == opts[1..][..FirstWith(opts[1..], value)] + opts[1..][FirstWith(opts[1..], value) + 1..]
    ensures (exists o :: o in opts && o.id == value) ==>
      [opts[0]] + rest == opts[..FirstWith(opts, value)] + opts[FirstWith(opts, value) + 1..]
  {
    if o :| o in opts && o.id == value {
      var tail := opts[1..];
      assert opts == [opts[0]] + tail;
      assert o in tail;
      var k := FirstWith(tail, value);
      assert FirstWith(opts, value) == k + 1;
      DropAfterHead(opts[0], tail, k);
    }
  }

  /** Dropping position `k + 1` of `[h] + t` keeps `h` and drops position `k` of `t`. */
  lemma DropAfterHead<T>(h: T, t: seq<T>, k: nat)
    requires k < |t|
    ensures ([h] + t)[..k + 1] + ([h] + t)[k + 2..] == [h] + (t[..k] + t[k + 1..])
  {
    assert ([h] + t)[..k + 1] == [h] + t[..k];
    assert ([h] + t)[k + 2..] == t[k + 1..];
  }

  /** The text of the option with the select's value, or the empty text when there is none. */
  function NameOf(opts: seq<RoleOption>, value: Text): (name: Text)
    ensures (exists o :: o in opts && o.id == value) ==> RoleOption(value, name) in opts
  {
    if opts == [] then ""
    else if opts[0].id == value then opts[0].name
    else NameOf(opts[1..], value)
  }

  /** The badges of the autocomplete's selection area: the selected options, in option order. */
  function SelectedOf(opts: seq<TagOption>, selected: set<Text>): (badges: seq<TagOption>)
    ensures forall b :: b in badges ==> b in opts && b.id in selected
    ensures |badges| > 0 <==> exists o :: o in opts && o.id in selected
  {
    if opts == [] then []
    else (if opts[0].id in selected then [opts[0]] else []) + SelectedOf(opts[1..], selected)
  }

  // ---------------------------------------------------------------------
  // The objects
  // ---------------------------------------------------------------------

  /** `AssociationsList`: the associations table. */
  class AssociationsList {
    var rows: seq<RowData>
    var placeholders: nat

    function State(): Table
      reads this
    {
      Table(rows, placeholders)
    }

    ghost predicate Valid()
      reads this
    {
      TableValid(State()) && forall k :: 0 <= k < |rows| ==> Serialised(rows[k])
    }

    /** The table as the form renders it. */
    constructor (initial: seq<RowData>)
      requires forall k :: 0 <= k < |initial| ==> Serialised(initial[k])
      ensures Valid() && rows == initial
    {
      rows := initial;
      placeholders := if initial == [] then 1 else 0;
    }

    /** `buildRowData`: the `.each` loop over the selected badges. */
    method BuildRowData(role: RoleOption, selected: seq<TagOption>) returns (row: RowData)
      ensures row == RowOf(role, selected)
    {
      var badges: seq<TagOption> := [];
      var tokens: seq<Text> := [];
      for i := 0 to |selected|
        invariant |badges| == i && |tokens| == i
        invariant forall k :: 0 <= k < i ==> badges[k] == TagOption(selected[k].id, StripMark(selected[k].text))
        invariant forall k :: 0 <= k < i ==> tokens[k] == Token(role.id, selected[k].id)
      {
        badges := badges + [TagOption(selected[i].id, StripMark(selected[i].text))];
        tokens := tokens + [Token(role.id, selected[i].id)];
      }
      row := RowData(role.id, role.name, badges, tokens);
    }

    method AddRow(role: RoleOption, selected: seq<TagOption>)
      requires Valid()
      modifies this
      ensures Valid()
      ensures State() == WithRow(old(State()), RowOf(role, selected))
    {
      var row := BuildRowData(role, selected);
      placeholders := 0;
      rows := rows + [row];
    }

    /** `modifyRow` on `$('.actions[data-roleid=…]').closest('tr')`: every row of that role. */
    method ModifyRow(role: RoleOption, selected: seq<TagOption>)
      requires Valid()
      modifies this
      ensures Valid()
      ensures State() == WithModified(old(State()), RowOf(role, selected))
    {
      var row := BuildRowData(role, selected);
      rows := WithModified(State(), row).rows;
    }

    method DeleteRow(i: nat)
      requires Valid() && i < |rows|
      modifies this
      ensures Valid()
      ensures State() == WithoutRow(old(State()), i)
    {
      rows := rows[..i] + rows[i + 1..];
      if rows == [] {
        placeholders := placeholders + 1;
      }
    }

    method Empty()
      requires Valid()
      modifies this
      ensures Valid()
      ensures State() == Emptied(old(State()))
    {
      if placeholders == 0 {
        rows := [];
        placeholders := 1;
      }
    }
  }

  /** `AssociationRoleSelect`: the role select and its pool of options. */
  class AssociationRoleSelect {
    var options: seq<RoleOption>
    var value: Text
    var disabled: bool

    constructor (initial: seq<RoleOption>, value0: Text)
      ensures options == initial && value == value0 && !disabled
    {
      options := initial;
      value := value0;
      disabled := false;
    }

    /** `getSelectedOption`. */
    function SelectedOption(): RoleOption
      reads this
    {
      RoleOption(value, NameOf(options, value))
    }

    method SetValue(v: Text)
      modifies this
      ensures value == v && options == old(options) && disabled == old(disabled)
    {
      value := v;
    }

    method AddOption(key: Text, name: Text)
      modifies this
      ensures options == old(options) + [RoleOption(key, name)]
      ensures value == old(value) && disabled == old(disabled)
    {
      options := options + [RoleOption(key, name)];
    }

    method DeleteOption(id: Text)
      modifies this
      ensures options == Keep(old(options), {id})
      ensures value == old(value) && disabled == old(disabled)
    {
      options := Keep(options, {id});
    }

    method DeleteSelectedOption()
      modifies this
      ensures options == DropFirst(old(options), old(value))
      ensures value == old(value) && disabled == old(disabled)
    {
      options := DropFirst(options, value);
    }

    /** Edit mode: the row's role is offered, chosen and locked. */
    method ShowInEditMode(role: RoleOption)
      modifies this
      ensures options == old(options) + [role]
      ensures value == role.id && disabled
    {
      AddOption(role.id, role.name);
      SetValue(role.id);
      disabled := true;
    }

    /** Add mode: the select is unlocked and every role of the table leaves the pool. */
    method ShowInAddMode(rows: seq<RowData>)
      modifies this
      ensures options == Keep(old(options), RolesOfRows(rows))
      ensures value == old(value) && !disabled
    {
      disabled := false;
      KeepNone(options);
      assert RolesOfRows(rows[..0]) == {};
      for i := 0 to |rows|
        invariant options == Keep(old(options), RolesOfRows(rows[..i]))
        invariant value == old(value) && !disabled
      {
        KeepTwice(old(options), RolesOfRows(rows[..i]), {rows[i].roleId});
        assert RolesOfRows(rows[..i + 1]) == RolesOfRows(rows[..i]) + {rows[i].roleId} by {
          assert forall k :: 0 <= k < i ==> rows[..i + 1][k] == rows[..i][k];
        }
        DeleteOption(rows[i].roleId);
      }
      assert rows[..|rows|] == rows;
    }
  }

  /** `AssociationTagsSelect`: the tag select behind the autocomplete. */
  class AssociationTagsSelect {
    var options: seq<TagOption>
    var selected: set<Text>

    constructor (initial: seq<TagOption>)
      ensures options == initial && selected == {}
    {
      options := initial;
      selected := {};
    }

    /** The badges of the selection area. */
    function Badges(): seq<TagOption>
      reads this
    {
      SelectedOf(options, selected)
    }

    method SelectOption(id: Text)
      modifies this
      ensures selected == old(selected) + {id} && options == old(options)
    {
      selected := selected + {id};
    }

    method UnselectOptions()
      modifies this
      ensures selected == {} && options == old(options)
    {
      selected := {};
    }

    /** Edit mode: the row's tags are selected. */
    method ShowInEditMode(badges: seq<TagOption>)
      modifies this
      ensures selected == old(selected) + BadgeIds(badges)
      ensures options == old(options)
    {
      for i := 0 to |badges|
        invariant selected == old(selected) + BadgeIds(badges[..i])
        invariant options == old(options)
      {
        assert badges[..i + 1] == badges[..i] + [badges[i]];
        SelectOption(badges[i].id);
      }
      assert badges[..|badges|] == badges;
    }

    /** `loadOptions(data)`: the options become exactly the response's tags, none selected. */
    method LoadOptions(data: seq<TagOption>)
      modifies this
      ensures options == data && selected == {}
    {
      options := [];
      for i := 0 to |data|
        invariant options == data[..i]
      {
        options := options + [data[i]];
      }
      selected := {};
    }

    method Reset()
      modifies this
      ensures selected == {} && options == old(options)
    {
      UnselectOptions();
    }
  }

  datatype Mode = Add | Edit

  /** `AssociationsEditor`: the modal and its buttons. */
  class AssociationsEditor {
    const associationsList: AssociationsList
    const associationRoleSelect: AssociationRoleSelect
    const associationTagsSelect: AssociationTagsSelect
    var mode: Mode
    /** The `data-item` of the modify button: the role being edited. */
    var modifyItem: Text
    /** The "select a tag" error and the input's error style, shown and hidden together. */
    var errorShown: bool

    ghost predicate Valid()
      reads this, associationsList
    {
      associationsList.Valid()
    }

    constructor (list: AssociationsList, roles: AssociationRoleSelect, tags: AssociationTagsSelect)
      requires list.Valid()
      ensures Valid()
      ensures associationsList == list && associationRoleSelect == roles && associationTagsSelect == tags
      ensures mode == Add && !errorShown
    {
      associationsList := list;
      associationRoleSelect := roles;
      associationTagsSelect := tags;
      mode := Add;
      modifyItem := "";
      errorShown := false;
    }

    /** `validate`: some tag must be selected; otherwise the error is shown. */
    method Validate() returns (ok: bool)
      modifies this
      ensures ok <==> |associationTagsSelect.Badges()| > 0
      ensures errorShown == !ok
      ensures mode == old(mode) && modifyItem == old(modifyItem)
    {
      errorShown := false;
      if |associationTagsSelect.Badges()| == 0 {
        errorShown := true;
        ok := false;
      } else {
        ok := true;
      }
    }

    /**
     * `show.bs.modal`: from a row's edit button (`caller` is the row)
     * the modal edits that row; from the add button it adds.
     */
    method ShowModal(caller: Option<nat>)
      requires Valid()
      requires caller.Some? ==> caller.value < |associationsList.rows|
      modifies this, associationRoleSelect, associationTagsSelect
      ensures Valid()
      ensures caller.None? ==>
        && associationRoleSelect.options == Keep(old(associationRoleSelect.options), RolesOfRows(associationsList.rows))
        && !associationRoleSelect.disabled
        && mode == old(mode) && unchanged(associationTagsSelect)
      ensures caller.Some? ==>
        var row := associationsList.rows[caller.value];
        && mode == Edit && modifyItem == row.roleId
        && associationRoleSelect.options == old(associationRoleSelect.options) + [RoleOption(row.roleId, row.roleName)]
        && associationRoleSelect.value == row.roleId && associationRoleSelect.disabled
        && associationTagsSelect.selected == old(associationTagsSelect.selected) + BadgeIds(row.badges)
        && associationTagsSelect.options == old(associationTagsSelect.options)
      ensures errorShown == old(errorShown)
    {
      match caller
      case Some(i) =>
        var row := associationsList.rows[i];
        mode := Edit;
        modifyItem := row.roleId;
        associationRoleSelect.ShowInEditMode(RoleOption(row.roleId, row.roleName));
        associationTagsSelect.ShowInEditMode(row.badges);
      case None =>
        associationRoleSelect.ShowInAddMode(associationsList.rows);
    }

    /** `hidden.bs.modal`: back to Add mode, no error, no tag selected. */
    method HideModal()
      modifies this, associationTagsSelect
      ensures mode == Add && !errorShown
      ensures associationTagsSelect.selected == {} && associationTagsSelect.options == old(associationTagsSelect.options)
      ensures modifyItem == old(modifyItem)
    {
      mode := Add;
      errorShown := false;
      associationTagsSelect.Reset();
    }

    /**
     * The add button: with some tag selected, a row for the chosen role and
     * tags goes last, that role's option leaves the pool and the modal
     * closes; otherwise only the error shows.
     */
    method AddClicked() returns (ok: bool)
      requires Valid()
      modifies this, associationsList, associationRoleSelect, associationTagsSelect
      ensures Valid()
      ensures ok <==> |old(associationTagsSelect.Badges())| > 0
      ensures !ok ==> errorShown && unchanged(associationsList, associationRoleSelect, associationTagsSelect)
      ensures ok ==>
        && associationsList.State() == WithRow(old(associationsList.State()),
             RowOf(old(associationRoleSelect.SelectedOption()), old(associationTagsSelect.Badges())))
        && associationRoleSelect.options == DropFirst(old(associationRoleSelect.options), old(associationRoleSelect.value))
        && associationRoleSelect.disabled == old(associationRoleSelect.disabled)
        && mode == Add && !errorShown && associationTagsSelect.selected == {}
        && associationTagsSelect.options == old(associationTagsSelect.options)
    {
      ok := Validate();
      if ok {
        var role := associationRoleSelect.SelectedOption();
        associationsList.AddRow(role, associationTagsSelect.Badges());
        associationRoleSelect.DeleteSelectedOption();
        HideModal();
      }
    }

    /**
     * The modify button: with some tag selected, the rows of the chosen
     * role get the chosen tags and the modal closes; otherwise only the
     * error shows.
     */
    method ModifyClicked() returns (ok: bool)
      requires Valid()
      modifies this, associationsList, associationTagsSelect
      ensures Valid()
      ensures ok <==> |old(associationTagsSelect.Badges())| > 0
      ensures !ok ==> errorShown && unchanged(associationsList, associationTagsSelect)
      ensures ok ==>
        && associationsList.State() == WithModified(old(associationsList.State()),
             RowOf(associationRoleSelect.SelectedOption(), old(associationTagsSelect.Badges())))
        && mode == Add && !errorShown && associationTagsSelect.selected == {}
        && associationTagsSelect.options == old(associationTagsSelect.options)
      ensures unchanged(associationRoleSelect)
    {
      ok := Validate();
      if ok {
        var role := associationRoleSelect.SelectedOption();
        associationsList.ModifyRow(role, associationTagsSelect.Badges());
        HideModal();
      }
    }

    /** A row's delete icon: the row goes and its role returns to the pool. */
    method DeleteClicked(i: nat)
      requires Valid() && i < |associationsList.rows|
      modifies associationsList, associationRoleSelect
      ensures Valid()
      ensures associationsList.State() == WithoutRow(old(associationsList.State()), i)
      ensures associationRoleSelect.options ==
        old(associationRoleSelect.options) + [RoleOption(old(associationsList.rows[i].roleId), old(associationsList.rows[i].roleName))]
      ensures associationRoleSelect.value == old(associationRoleSelect.value)
      ensures associationRoleSelect.disabled == old(associationRoleSelect.disabled)
    {
      var row := associationsList.rows[i];
      associationRoleSelect.AddOption(row.roleId, row.roleName);
      associationsList.DeleteRow(i);
    }
  }

  /** `WikifilterEditor`: reacts to a change of the chosen wiki. */
  class WikifilterEditor {
    const associationsEditor: AssociationsEditor

    constructor (editor: AssociationsEditor)
      ensures associationsEditor == editor
    {
      associationsEditor := editor;
    }

    /**
     * The answer to the page-tags request for the new wiki: on success the
     * table is emptied and the tag options become the answer's tags; a
     * failed request changes nothing.
     */
    method WikiChanged(response: Option<seq<TagOption>>)
      requires associationsEditor.Valid()
      modifies associationsEditor.associationsList, associationsEditor.associationTagsSelect
      ensures associationsEditor.Valid()
      ensures response.None? ==> unchanged(associationsEditor.associationsList, associationsEditor.associationTagsSelect)
      ensures response.Some? ==>
        && associationsEditor.associationsList.State() == Emptied(old(associationsEditor.associationsList.State()))
        && associationsEditor.associationTagsSelect.options == response.value
        && associationsEditor.associationTagsSelect.selected == {}
    {
      match response
      case Some(data) =>
        associationsEditor.associationsList.Empty();
        associationsEditor.associationTagsSelect.LoadOptions(data);
      case None =>
    }
  }
}

=== FILE: association_store.dfy ===
/**
 * The association store of lib.php: the `wikifilter` and
 * `wikifilter_associations` tables, the `"roleId-tagId"` tokens that fill
 * the second, and the GROUP BY role read that the permission check uses.
 */
module AssociationStore {
  import opened Strings
  import opened Wrappers

  /** One row of `wikifilter_associations`. */
  datatype Association = Association(id: nat, roleId: Text, tagId: Text, wikiId: nat, wikifilterId: nat)

  /** What a row stores besides its auto-increment id. */
  datatype Entry = Entry(roleId: Text, tagId: Text, wikiId: nat, wikifilterId: nat)

  /** The fields of a `wikifilter` row that the core touches. */
  datatype FilterInstance = FilterInstance(course: nat, wiki: nat, name: Text)

  function Strip(row: Association): Entry {
    Entry(row.roleId, row.tagId, row.wikiId, row.wikifilterId)
  }

  /** The stored content of a table, row ids left aside. */
  function Content(rows: seq<Association>): seq<Entry> {
    seq(|rows|, i requires 0 <= i < |rows| => Strip(rows[i]))
  }

  lemma ContentSnoc(rows: seq<Association>, row: Association)
    ensures Content(rows + [row]) == Content(rows) + [Strip(row)]
  {
  }

  // ---------------------------------------------------------------------
  // Tokens
  // ---------------------------------------------------------------------

  /** The token the editor emits for one role-tag pair. */
  function Token(roleId: Text, tagId: Text): Text {
    roleId + "-" + tagId
  }

  /**
   * `explode('-', token)`: the role is the first piece and the tag the
   * second. A token without `-` has no second piece; PHP then reads null.
   */
  function ParseToken(token: Text): (pair: (Text, Option<Text>))
    ensures '-' !in pair.0
    ensures pair.1.None? <==> '-' !in token
    ensures pair.1.Some? ==> '-' !in pair.1.value
    ensures '-' !in token ==> pair.0 == token
  {
    var parts := Split(token, '-');
    SplitPieces(token, '-');
    (parts[0], if |parts| > 1 then Some(parts[1]) else None)
  }

  /** Parsing undoes `Token` for ids without a dash (every decimal id). */
  lemma ParseTokenRoundTrip(roleId: Text, tagId: Text)
    requires '-' !in roleId && '-' !in tagId
    ensures ParseToken(Token(roleId, tagId)) == (roleId, Some(tagId))
  {
    assert Join([roleId, tagId], '-') == Token(roleId, tagId);
    SplitJoin([roleId, tagId], '-');
  }

  /**
   * What an `INTEGER NOT NULL` column of `wikifilter_associations` keeps of
   * a field value: the number, printed without leading zeros, or nothing
   * when the value is null or not a decimal number and `insert_record`
   * throws.
   */
  function IntegerColumn(v: Option<Text>): (stored: Option<Text>)
    ensures stored.Some? <==> v.Some? && IsId(v.value)
    ensures stored.Some? ==> IsCanonicalId(stored.value) && Value(stored.value) == Value(v.value)
    ensures v.Some? && IsCanonicalId(v.value) ==> stored == v
  {
    if v.Some? && IsId(v.value) then Some(DropZeros(v.value)) else None
  }

  /** A token whose row `insert_record` accepts: a decimal role, a `-`, a decimal tag. */
  predicate Storable(token: Text) {
    var pair := ParseToken(token);
    IsId(pair.0) && pair.1.Some? && IsId(pair.1.value)
  }

  predicate AllStorable(tokens: seq<Text>) {
    forall i :: 0 <= i < |tokens| ==> Storable(tokens[i])
  }

  /**
   * The row content `insert_record` stores for one token of instance `id`,
   * or None when the insert throws.
   */
  function EntryOf(token: Text, id: nat, wikiId: nat): (r: Option<Entry>)
    ensures r.Some? <==> Storable(token)
    ensures r.Some? ==> r.value.wikifilterId == id && r.value.wikiId == wikiId
                        && IsCanonicalId(r.value.roleId) && IsCanonicalId(r.value.tagId)
  {
    var pair := ParseToken(token);
    var role := IntegerColumn(Some(pair.0));
    var tag := IntegerColumn(pair.1);
    if role.Some? && tag.Some? then Some(Entry(role.value, tag.value, wikiId, id)) else None
  }

  /** A token built from two canonical ids stores exactly those ids. */
  lemma EntryOfToken(roleId: Text, tagId: Text, id: nat, wikiId: nat)
    requires IsCanonicalId(roleId) && IsCanonicalId(tagId)
    ensures EntryOf(Token(roleId, tagId), id, wikiId) == Some(Entry(roleId, tagId, wikiId, id))
  {
    IdHasNoSeparator(roleId, '-');
    IdHasNoSeparator(tagId, '-');
    ParseTokenRoundTrip(roleId, tagId);
  }

  /** A token without `-` leaves the tag null, and its insert throws. */
  lemma EntryOfNoDash(token: Text, id: nat, wikiId: nat)
    requires '-' !in token
    ensures EntryOf(token, id, wikiId) == None
  {
  }

  /** A leading zero is dropped: the column keeps the number, not the text. */
  lemma EntryOfLeadingZero(id: nat, wikiId: nat)
    ensures EntryOf("05-007", id, wikiId) == Some(Entry("5", "7", wikiId, id))
  {
    ParseTokenRoundTrip("05", "007");
    assert Token("05", "007") == "05-007";
    ZerosDropped();
  }

  lemma ZerosDropped()
    ensures DropZeros("05") == "5" && DropZeros("007") == "7"
  {
    assert DropZeros("05") == DropZeros("5");
    assert DropZeros("007") == DropZeros("07") == DropZeros("7");
  }

  /**
   * The row contents `wikifilter_insert_associations` stores for a list of
   * tokens: one per token, in order, up to the first token whose insert
   * throws, which ends the loop.
   */
  function Inserted(tokens: seq<Text>, id: nat, wikiId: nat): seq<Entry>
    decreases |tokens|
  {
    if tokens == [] then []
    else match EntryOf(tokens[0], id, wikiId)
      case None => []
      case Some(e) => [e] + Inserted(tokens[1..], id, wikiId)
  }

  /**
   * `Inserted` is the longest run of storable tokens from the start, each
   * stored as `EntryOf` says; what follows it, if anything, is a token whose
   * insert throws.
   */
  lemma {:induction false} InsertedPrefix(tokens: seq<Text>, id: nat, wikiId: nat)
    ensures |Inserted(tokens, id, wikiId)| <= |tokens|
    ensures forall k :: 0 <= k < |Inserted(tokens, id, wikiId)| ==>
              EntryOf(tokens[k], id, wikiId) == Some(Inserted(tokens, id, wikiId)[k])
    ensures |Inserted(tokens, id, wikiId)| < |tokens| ==> !Storable(tokens[|Inserted(tokens, id, wikiId)|])
    ensures |Inserted(tokens, id, wikiId)| == |tokens| <==> AllStorable(tokens)
    decreases |tokens|
  {
    if tokens != [] && EntryOf(tokens[0], id, wikiId).Some? {
      var rest := tokens[1..];
      InsertedPrefix(rest, id, wikiId);
      var r := Inserted(tokens, id, wikiId);
      assert r == [EntryOf(tokens[0], id, wikiId).value] + Inserted(rest, id, wikiId);
      forall k | 0 <= k < |r| ensures EntryOf(tokens[k], id, wikiId) == Some(r[k]) {
        if k > 0 {
          assert tokens[k] == rest[k - 1];
        }
      }
      if AllStorable(tokens) {
        assert forall k :: 0 <= k < |rest| ==> tokens[k + 1] == rest[k];
      }
      if AllStorable(rest) {
        assert forall k :: 0 < k < |tokens| ==> tokens[k] == rest[k - 1];
      }
    }
  }

  /** A prefix of storable tokens that ends at a throwing token, or at the end, is what `Inserted` stores. */
  lemma InsertedUpTo(tokens: seq<Text>, id: nat, wikiId: nat, n: nat)
    requires n <= |tokens|
    requires forall k :: 0 <= k < n ==> Storable(tokens[k])
    requires n < |tokens| ==> !Storable(tokens[n])
    ensures |Inserted(tokens, id, wikiId)| == n
    ensures forall k :: 0 <= k < n ==> EntryOf(tokens[k], id, wikiId) == Some(Inserted(tokens, id, wikiId)[k])
  {
    InsertedPrefix(tokens, id, wikiId);
  }

  /** Every stored row belongs to the instance the tokens were inserted for. */
  lemma {:induction false} InsertedInstance(tokens: seq<Text>, id: nat, wikiId: nat)
    ensures forall e :: e in Inserted(tokens, id, wikiId) ==> e.wikifilterId == id
    decreases |tokens|
  {
    if tokens != [] && EntryOf(tokens[0], id, wikiId).Some? {
      InsertedInstance(tokens[1..], id, wikiId);
    }
  }

  // ---------------------------------------------------------------------
  // Instance filters
  // ---------------------------------------------------------------------

  /** The rows of instance `id`, in table order. */
  function OfInstance(c: seq<Entry>, id: nat): seq<Entry>
  {
    if c == [] then []
    else (if c[0].wikifilterId == id then [c[0]] else []) + OfInstance(c[1..], id)
  }

  /** A row is among the rows of instance `id` exactly when it is stored for that instance. */
  lemma {:induction false} OfInstanceMembers(c: seq<Entry>, id: nat)
    ensures forall e :: e in OfInstance(c, id) <==> e in c && e.wikifilterId == id
  {
    if c != [] {
      OfInstanceMembers(c[1..], id);
      assert c == [c[0]] + c[1..];
    }
  }

  /** The rows of every other instance, in table order. */
  function OtherInstances(c: seq<Entry>, id: nat): (r: seq<Entry>)
  {
    if c == [] then []
    else (if c[0].wikifilterId == id then [] else [c[0]]) + OtherInstances(c[1..], id)
  }

  /** `delete_records('wikifilter_associations', ['wikifilter_id' => id])` on rows. */
  function DeleteInstanceRows(rows: seq<Association>, id: nat): (r: seq<Association>)
    ensures forall a :: a in r ==> a in rows
    ensures Content(r) == OtherInstances(Content(rows), id)
  {
    if rows == [] then []
    else
      var rest := DeleteInstanceRows(rows[1..], id);
      assert Content(rows) == [Strip(rows[0])] + Content(rows[1..]);
      var head := if rows[0].wikifilterId != id then [rows[0]] else [];
      assert Content(head + rest) == Content(head) + Content(rest);
      head + rest
  }

  /**
   * The stored content after `wikifilter_update_associations(id, wikiId,
   * tokens)`: every row of the instance deleted, then the rows the
   * inserts store before the first one that throws, if any does.
   */
  function Replace(c: seq<Entry>, id: nat, wikiId: nat, tokens: seq<Text>): seq<Entry> {
    OtherInstances(c, id) + Inserted(tokens, id, wikiId)
  }

  lemma {:induction false} OfInstanceAppend(a: seq<Entry>, b: seq<Entry>, id: nat)
    ensures OfInstance(a + b, id) == OfInstance(a, id) + OfInstance(b, id)
    decreases |a|
  {
    if a != [] {
      OfInstanceAppend(a[1..], b, id);
      assert (a + b)[1..] == a[1..] + b;
    } else {
      assert a + b == b;
    }
  }

  lemma {:induction false} OtherInstancesAppend(a: seq<Entry>, b: seq<Entry>, id: nat)
    ensures OtherInstances(a + b, id) == OtherInstances(a, id) + OtherInstances(b, id)
    decreases |a|
  {
    if a != [] {
      OtherInstancesAppend(a[1..], b, id);
      assert (a + b)[1..] == a[1..] + b;
    } else {
      assert a + b == b;
    }
  }

  lemma {:induction false} OtherInstancesIdempotent(c: seq<Entry>, id: nat)
    ensures OtherInstances(OtherInstances(c, id), id) == OtherInstances(c, id)
    decreases |c|
  {
    if c != [] {
      var head := if c[0].wikifilterId != id then [c[0]] else [];
      OtherInstancesIdempotent(c[1..], id);
      OtherInstancesAppend(head, OtherInstances(c[1..], id), id);
    }
  }

  /** Filtering by instance keeps the rows of a different instance. */
  lemma {:induction false} OfOtherInstances(c: seq<Entry>, id: nat, other: nat)
    requires other != id
    ensures OfInstance(OtherInstances(c, id), other) == OfInstance(c, other)
    decreases |c|
  {
    if c != [] {
      var head := if c[0].wikifilterId != id then [c[0]] else [];
      OfOtherInstances(c[1..], id, other);
      OfInstanceAppend(head, OtherInstances(c[1..], id), other);
    }
  }

  /** Filtering keeps every row of a list whose rows all belong to that one instance. */
  lemma {:induction false} OfInstanceAll(c: seq<Entry>, id: nat)
    requires forall e :: e in c ==> e.wikifilterId == id
    ensures OfInstance(c, id) == c
    decreases |c|
  {
    if c != [] {
      assert c[0] in c;
      OfInstanceAll(c[1..], id);
      assert c == [c[0]] + c[1..];
    }
  }

  lemma {:induction false} NoOtherRow(c: seq<Entry>, id: nat)
    requires forall e :: e in c ==> e.wikifilterId == id
    ensures OtherInstances(c, id) == []
    decreases |c|
  {
    if c != [] {
      assert c[0] in c;
      NoOtherRow(c[1..], id);
    }
  }

  lemma {:induction false} NothingLeftOf(c: seq<Entry>, id: nat)
    ensures OfInstance(OtherInstances(c, id), id) == []
    decreases |c|
  {
    if c != [] {
      var head := if c[0].wikifilterId == id then [] else [c[0]];
      NothingLeftOf(c[1..], id);
      OfInstanceAppend(head, OtherInstances(c[1..], id), id);
    }
  }

  lemma NoRowOf(c: seq<Entry>, id: nat)
    requires forall e :: e in c ==> e.wikifilterId != id
    ensures OfInstance(c, id) == []
  {
  }

  /** After a replace, the rows of the instance are exactly those built from the tokens. */
  lemma ReplaceSetsInstance(c: seq<Entry>, id: nat, wikiId: nat, tokens: seq<Text>)
    ensures OfInstance(Replace(c, id, wikiId, tokens), id) == Inserted(tokens, id, wikiId)
  {
    OfInstanceAppend(OtherInstances(c, id), Inserted(tokens, id, wikiId), id);
    NothingLeftOf(c, id);
    InsertedInstance(tokens, id, wikiId);
    OfInstanceAll(Inserted(tokens, id, wikiId), id);
  }

  /** A replace leaves the rows of every other instance as they were. */
  lemma ReplaceKeepsOtherInstances(c: seq<Entry>, id: nat, wikiId: nat, tokens: seq<Text>, other: nat)
    requires other != id
    ensures OfInstance(Replace(c, id, wikiId, tokens), other) == OfInstance(c, other)
  {
    OfInstanceAppend(OtherInstances(c, id), Inserted(tokens, id, wikiId), other);
    OfOtherInstances(c, id, other);
    InsertedInstance(tokens, id, wikiId);
    NoRowOf(Inserted(tokens, id, wikiId), other);
  }

  /** Replacing twice with the same tokens stores what replacing once stores. */
  lemma ReplaceIdempotent(c: seq<Entry>, id: nat, wikiId: nat, tokens: seq<Text>)
    ensures Replace(Replace(c, id, wikiId, tokens), id, wikiId, tokens) == Replace(c, id, wikiId, tokens)
  {
    var es := Inserted(tokens, id, wikiId);
    OtherInstancesAppend(OtherInstances(c, id), es, id);
    OtherInstancesIdempotent(c, id);
    InsertedInstance(tokens, id, wikiId);
    NoOtherRow(es, id);
  }

  // ---------------------------------------------------------------------
  // Grouped read
  // ---------------------------------------------------------------------

  function RolesOf(c: seq<Entry>): set<Text> {
    set e | e in c :: e.roleId
  }

  /** The tag ids of the rows with role `roleId`, in table order. */
  function TagsOfRole(c: seq<Entry>, roleId: Text): (tags: seq<Text>)
    ensures |tags| > 0 <==> roleId in RolesOf(c)
    ensures forall t :: t in tags <==> exists e :: e in c && e.roleId == roleId && e.tagId == t
  {
    if c == [] then []
    else
      var rest := TagsOfRole(c[1..], roleId);
      assert forall e :: e in c <==> e == c[0] || e in c[1..];
      (if c[0].roleId == roleId then [c[0].tagId] else []) + rest
  }

  /**
   * `get_wikifilter_associations(id)`: SELECT role_id, GROUP_CONCAT(tag_id)
   * ... WHERE wikifilter_id = id GROUP BY role_id, keyed by role id.
   */
  function Grouped(c: seq<Entry>, id: nat): (g: map<Text, Text>)
    ensures forall r :: r in g <==> exists e :: e in c && e.wikifilterId == id && e.roleId == r
  {
    var mine := OfInstance(c, id);
    OfInstanceMembers(c, id);
    map r | r in RolesOf(mine) :: Join(TagsOfRole(mine, r), ',')
  }

  /** Exploding a grouped value on `,` gives back the role's tag ids, in table order. */
  lemma GroupedRoundTrip(c: seq<Entry>, id: nat, roleId: Text)
    requires roleId in Grouped(c, id)
    requires forall e :: e in c ==> ',' !in e.tagId
    ensures Split(Grouped(c, id)[roleId], ',') == TagsOfRole(OfInstance(c, id), roleId)
  {
    var tags := TagsOfRole(OfInstance(c, id), roleId);
    OfInstanceMembers(c, id);
    forall i | 0 <= i < |tags| ensures ',' !in tags[i] {
      assert tags[i] in tags;
    }
    SplitJoin(tags, ',');
  }

  /** The tag ids paired with `roleId`, in order. */
  function TagsFor(pairs: seq<(Text, Text)>, roleId: Text): seq<Text> {
    if pairs == [] then []
    else (if pairs[0].0 == roleId then [pairs[0].1] else []) + TagsFor(pairs[1..], roleId)
  }

  function Tokens(pairs: seq<(Text, Text)>): seq<Text> {
    seq(|pairs|, i requires 0 <= i < |pairs| => Token(pairs[i].0, pairs[i].1))
  }

  /** Pairs of ids as the database prints them, which is what the editor's options carry. */
  predicate WellFormed(pairs: seq<(Text, Text)>) {
    forall i :: 0 <= i < |pairs| ==> IsCanonicalId(pairs[i].0) && IsCanonicalId(pairs[i].1)
  }

  /** The tokens of well-formed pairs are all stored, each as its own pair. */
  lemma InsertedTokens(pairs: seq<(Text, Text)>, id: nat, wikiId: nat)
    requires WellFormed(pairs)
    ensures AllStorable(Tokens(pairs))
    ensures |Inserted(Tokens(pairs), id, wikiId)| == |pairs|
    ensures forall k :: 0 <= k < |pairs| ==> Inserted(Tokens(pairs), id, wikiId)[k] == Entry(pairs[k].0, pairs[k].1, wikiId, id)
  {
    var tokens := Tokens(pairs);
    forall k | 0 <= k < |pairs| ensures EntryOf(tokens[k], id, wikiId) == Some(Entry(pairs[k].0, pairs[k].1, wikiId, id)) {
      EntryOfToken(pairs[k].0, pairs[k].1, id, wikiId);
    }
    InsertedUpTo(tokens, id, wikiId, |tokens|);
  }

  lemma IdHasNoSeparator(s: Text, sep: char)
    requires IsId(s) && !IsDigit(sep)
    ensures sep !in s
  {
  }

  lemma {:induction false} TagsOfTokens(pairs: seq<(Text, Text)>, id: nat, wikiId: nat, roleId: Text)
    requires WellFormed(pairs)
    ensures TagsOfRole(Inserted(Tokens(pairs), id, wikiId), roleId) == TagsFor(pairs, roleId)
    decreases |pairs|
  {
    if pairs != [] {
      assert Tokens(pairs)[1..] == Tokens(pairs[1..]);
      EntryOfToken(pairs[0].0, pairs[0].1, id, wikiId);
      TagsOfTokens(pairs[1..], id, wikiId, roleId);
    }
  }

  /**
   * Serialise, replace, group: for every role the editor sent, exploding the
   * grouped value gives back exactly the tag ids sent with that role.
   */
  lemma ReplaceThenGroup(c: seq<Entry>, id: nat, wikiId: nat, pairs: seq<(Text, Text)>, roleId: Text)
    requires WellFormed(pairs)
    requires (exists i :: 0 <= i < |pairs| && pairs[i].0 == roleId)
    ensures roleId in Grouped(Replace(c, id, wikiId, Tokens(pairs)), id)
    ensures Split(Grouped(Replace(c, id, wikiId, Tokens(pairs)), id)[roleId], ',') == TagsFor(pairs, roleId)
  {
    var stored := Replace(c, id, wikiId, Tokens(pairs));
    ReplaceSetsInstance(c, id, wikiId, Tokens(pairs));
    TagsOfTokens(pairs, id, wikiId, roleId);
    var i :| 0 <= i < |pairs| && pairs[i].0 == roleId;
    InsertedTokens(pairs, id, wikiId);
    var e := Inserted(Tokens(pairs), id, wikiId)[i];
    assert e.roleId == roleId;
    assert e in OfInstance(stored, id);
    var mine := OfInstance(stored, id);
    assert roleId in RolesOf(mine);
    forall k | 0 <= k < |TagsOfRole(mine, roleId)| ensures ',' !in TagsOfRole(mine, roleId)[k] {
      var t := TagsOfRole(mine, roleId)[k];
      assert t in TagsFor(pairs, roleId);
      TagsForIds(pairs, roleId, t);
      IdHasNoSeparator(t, ',');
    }
    SplitJoin(TagsOfRole(mine, roleId), ',');
  }

  lemma {:induction false} TagsForIds(pairs: seq<(Text, Text)>, roleId: Text, t: Text)
    requires WellFormed(pairs) && t in TagsFor(pairs, roleId)
    ensures IsId(t)
    decreases |pairs|
  {
    if pairs[0].0 == roleId && t == pairs[0].1 {
    } else {
      TagsForIds(pairs[1..], roleId, t);
    }
  }

  // ---------------------------------------------------------------------
  // The tables
  // ---------------------------------------------------------------------

  class Database {
    /** `wikifilter`, keyed by id. */
    var instances: map<nat, FilterInstance>
    /** `wikifilter_associations`, in insertion order. */
    var associations: seq<Association>
    /** The next auto-increment id of `wikifilter_associations`. */
    var nextId: nat

    ghost predicate Valid()
      reads this
    {
      forall a :: a in associations ==> a.id < nextId
    }

    constructor ()
      ensures Valid() && instances == map[] && associations == []
    {
      instances := map[];
      associations := [];
      nextId := 1;
    }

    /** `insert_record('wikifilter_associations', row)` for a row it accepts: the row goes last under a fresh id. */
    method InsertRecord(e: Entry) returns (rowId: nat)
      requires Valid()
      modifies this`associations, this`nextId
      ensures Valid()
      ensures rowId == old(nextId) && nextId == old(nextId) + 1
      ensures associations == old(associations) + [Association(rowId, e.roleId, e.tagId, e.wikiId, e.wikifilterId)]
    {
      rowId := nextId;
      associations := associations + [Association(rowId, e.roleId, e.tagId, e.wikiId, e.wikifilterId)];
      nextId := nextId + 1;
    }

    /**
     * `wikifilter_insert_associations(id, wikiId, tokens)` (lib.php): one
     * `insert_record` per token. An insert that throws ends the call with
     * the rows before it stored; the exception is `ok == false`.
     */
    method InsertAssociations(id: nat, wikiId: nat, tokens: seq<Text>) returns (ok: bool)
      requires Valid()
      modifies this`associations, this`nextId
      ensures Valid()
      ensures ok <==> AllStorable(tokens)
      ensures Content(associations) == Content(old(associations)) + Inserted(tokens, id, wikiId)
      ensures associations[..|old(associations)|] == old(associations)
      ensures forall k :: |old(associations)| <= k < |associations| ==> associations[k].id >= old(nextId)
    {
      ghost var before := associations;
      ghost var stored: seq<Entry> := [];
      var i := 0;
      ok := true;
      while i < |tokens|
        invariant 0 <= i <= |tokens|
        invariant Valid() && nextId >= old(nextId)
        invariant |associations| == |before| + i && |stored| == i
        invariant associations[..|before|] == before
        invariant Content(associations) == Content(before) + stored
        invariant forall k :: 0 <= k < i ==> EntryOf(tokens[k], id, wikiId) == Some(stored[k])
        invariant forall k :: |before| <= k < |associations| ==> associations[k].id >= old(nextId)
      {
        var entry := EntryOf(tokens[i], id, wikiId);
        if entry.None? {
          ok := false;
          break;
        }
        ContentSnoc(associations, Association(nextId, entry.value.roleId, entry.value.tagId, wikiId, id));
        var rowId := InsertRecord(entry.value);
        stored := stored + [entry.value];
        i := i + 1;
      }
      InsertedUpTo(tokens, id, wikiId, i);
      assert stored == Inserted(tokens, id, wikiId);
    }

    /**
     * `wikifilter_update_associations(id, wikiId, tokens)` (lib.php): the
     * delete happens first, so an insert that throws leaves the instance with
     * only the rows stored before it.
     */
    method UpdateAssociations(id: nat, wikiId: nat, tokens: seq<Text>) returns (ok: bool)
      requires Valid()
      modifies this`associations, this`nextId
      ensures Valid()
      ensures ok <==> AllStorable(tokens)
      ensures Content(associations) == Replace(Content(old(associations)), id, wikiId, tokens)
    {
      associations := DeleteInstanceRows(associations, id);
      ok := InsertAssociations(id, wikiId, tokens);
    }

    /**
     * `wikifilter_update_instance` (lib.php), association-table effects and
     * the row update. An insert that throws skips the row update, and the
     * exception is `ok == false`; `update_record` reports success even when
     * no row has that id.
     */
    method UpdateInstance(id: nat, record: FilterInstance, tokens: seq<Text>) returns (ok: bool)
      requires Valid()
      modifies this
      ensures Valid()
      ensures ok <==> |tokens| == 0 || AllStorable(tokens)
      ensures Content(associations) == Replace(Content(old(associations)), id, record.wiki, tokens)
      ensures instances == if ok && id in old(instances) then old(instances)[id := record] else old(instances)
    {
      if |tokens| == 0 {
        associations := DeleteInstanceRows(associations, id);
        assert Inserted(tokens, id, record.wiki) == [];
        assert Content(associations) == Content(associations) + [];
        ok := true;
      } else {
        ok := UpdateAssociations(id, record.wiki, tokens);
      }
      if ok && id in instances {
        instances := instances[id := record];
      }
    }

    /**
     * `wikifilter_delete_instance(id)` (lib.php): false for a missing record;
     * otherwise only the `wikifilter` row goes, association rows stay.
     */
    method DeleteInstance(id: nat) returns (ok: bool)
      modifies this`instances
      ensures ok == (id in old(instances))
      ensures instances == old(instances) - {id}
      ensures associations == old(associations)
    {
      ok := id in instances;
      if ok {
        instances := instances - {id};
      }
    }
  }
}

=== FILE: features.dfy ===
/**
 * `wikifilter_supports` (lib.php): the plugin features the module
 * declares. Feature names are Moodle's feature constants.
 */
module Features {
  import opened Wrappers

  const FEATURE_MOD_INTRO := "mod_intro"
  const FEATURE_BACKUP_MOODLE2 := "backup_moodle2"
  const FEATURE_SHOW_DESCRIPTION := "showdescription"

  /** True for the three declared features, PHP null for any other. */
  function Supports(feature: string): (r: Option<bool>)
    ensures r.Some? <==> feature in {FEATURE_MOD_INTRO, FEATURE_BACKUP_MOODLE2, FEATURE_SHOW_DESCRIPTION}
    ensures r != Some(false)
  {
    if feature == FEATURE_MOD_INTRO then Some(true)
    else if feature == FEATURE_BACKUP_MOODLE2 then Some(true)
    else if feature == FEATURE_SHOW_DESCRIPTION then Some(true)
    else None
  }
}

=== FILE: link_rewriter.dfy ===
/**
 * The link rewriter of lib.php: `process_wiki_page_links`, which
 * neutralises links to pages the user may not see, and
 * `format_wiki_page_content`, which drops edit links and points view links
 * at this module's own view page. `print_wiki_page_content` runs the first
 * and then the second on the rendered page.
 *
 * Each regular expression is modelled by a scanner over the text that
 * works as PCRE does for `preg_replace`: at each position try to match,
 * on success emit the replacement and go on after the match, otherwise
 * keep one character and go on after it. Without the `s` flag `.` does
 * not match a line break, so the lazy `.*?` groups stay on one line.
 */
module LinkRewriter {
  import opened Strings
  import opened Wrappers
  import Permission

  /** The start of an anchor as the wiki renders it. */
  const HrefOpen: Text := "<a href=\""
  const EditOpen: Text := "<a href=\"edit.php"
  const AttrEnd: Text := "\">"
  const AnchorEnd: Text := "</a>"
  /** What the view-link pattern of `format_wiki_page_content` looks for, before its one digit. */
  const ViewUrl: Text := "mod/wiki/view.php?pageid="
  const Placeholder: Text := "inaccessiblelink"
  const PlaceholderOpen: Text := "<a href=\"inaccessiblelink\">"

  /** `mod/wikifilter/view.php?id=M&pageid=`, the replacement before the kept digit. */
  function FilterViewUrl(moduleId: Text): Text {
    "mod/wikifilter/view.php?id=" + moduleId + "&pageid="
  }

  /** The absolute view URL `moodle_url('/mod/wiki/view.php', ...)->out()` gives, before the page id. */
  function WikiViewBase(wwwroot: Text): Text {
    wwwroot + "/" + ViewUrl
  }

  // ---------------------------------------------------------------------
  // Positions in a text
  // ---------------------------------------------------------------------

  /** `p` occurs in `s` at position `i`. */
  predicate At(s: Text, i: int, p: Text) {
    0 <= i && i + |p| <= |s| && s[i..i + |p|] == p
  }

  /** Position `m` of `s` holds a character other than a line break. */
  predicate InLine(s: Text, m: int) {
    0 <= m < |s| && s[m] != '\n'
  }

  /** No line break in `s[i..j]`. */
  predicate NoBreak(s: Text, i: int, j: int) {
    forall m :: i <= m < j ==> InLine(s, m)
  }

  lemma NoBreakJoin(s: Text, i: int, j: int, k: int)
    requires i <= j <= k && NoBreak(s, i, j) && NoBreak(s, j, k)
    ensures NoBreak(s, i, k)
  {
  }

  lemma NoBreakWithin(s: Text, i: int, j: int, k: int)
    requires i <= k && NoBreak(s, i, j)
    ensures NoBreak(s, k, j)
  {
  }

  /** An occurrence of a text without line breaks holds none. */
  lemma NoBreakOver(s: Text, i: int, p: Text)
    requires At(s, i, p) && '\n' !in p
    ensures NoBreak(s, i, i + |p|)
  {
    forall m | i <= m < i + |p| ensures InLine(s, m) {
      assert s[m] == s[i..i + |p|][m - i];
    }
  }

  /**
   * Lazy `.*?p` from position `i`: the first position `k` where `p` occurs
   * with no line break between `i` and `k`, or None when a line break or
   * the end comes first.
   */
  function FindLazy(s: Text, i: nat, p: Text): (r: Option<nat>)
    requires i <= |s|
    ensures r.Some? ==> i <= r.value && r.value + |p| <= |s|
    decreases |s| - i
  {
    if At(s, i, p) then Some(i)
    else if i == |s| || s[i] == '\n' then None
    else FindLazy(s, i + 1, p)
  }

  /** What FindLazy finds is the first occurrence on the line; when it finds none, the line has none. */
  lemma {:induction false} FindLazySound(s: Text, i: nat, p: Text)
    requires i <= |s|
    ensures FindLazy(s, i, p).Some? ==> var b := FindLazy(s, i, p).value;
      At(s, b, p) && NoBreak(s, i, b) && forall m :: i <= m < b ==> !At(s, m, p)
    ensures FindLazy(s, i, p).None? ==> forall k :: i <= k && NoBreak(s, i, k) ==> !At(s, k, p)
    decreases |s| - i
  {
    if !At(s, i, p) {
      if i < |s| && s[i] != '\n' {
        FindLazySound(s, i + 1, p);
        assert NoBreak(s, i, i + 1) by { assert InLine(s, i); }
        forall k | i < k && NoBreak(s, i, k) ensures NoBreak(s, i + 1, k) {
          NoBreakWithin(s, i, k, i + 1);
        }
        if FindLazy(s, i + 1, p).Some? {
          NoBreakJoin(s, i, i + 1, FindLazy(s, i + 1, p).value);
        }
      } else {
        assert !InLine(s, i);
      }
    }
  }

  /** Conversely, an occurrence on the same line with none before it is what FindLazy finds. */
  lemma {:induction false} FindLazyFirst(s: Text, i: nat, p: Text, b: nat)
    requires i <= b && At(s, b, p) && NoBreak(s, i, b)
    requires forall m :: i <= m < b ==> !At(s, m, p)
    ensures FindLazy(s, i, p) == Some(b)
    decreases b - i
  {
    if i < b {
      assert InLine(s, i);
      NoBreakWithin(s, i, b, i + 1);
      FindLazyFirst(s, i + 1, p, b);
    }
  }

  /**
   * Two lazy groups from `j`: `p` at `a` and then `q` at `b`, each group on
   * one line.
   */
  ghost predicate LazyPair(s: Text, j: int, p: Text, q: Text, a: int, b: int) {
    && j <= a && NoBreak(s, j, a) && At(s, a, p)
    && a + |p| <= b && NoBreak(s, a + |p|, b) && At(s, b, q)
  }

  /** Without `p` on the line, the two groups cannot match. */
  lemma NoFirstNoPair(s: Text, j: nat, p: Text, q: Text)
    requires j <= |s| && FindLazy(s, j, p).None?
    ensures forall a, b :: !LazyPair(s, j, p, q, a, b)
  {
    FindLazySound(s, j, p);
  }

  /**
   * Backtracking to a later `p` cannot help: when nothing closes the line
   * after the first `p`, nothing closes it after a later `p` either.
   */
  lemma NoSecondNoPair(s: Text, j: nat, p: Text, q: Text, a0: nat)
    requires j <= |s| && FindLazy(s, j, p) == Some(a0) && FindLazy(s, a0 + |p|, q).None?
    requires '\n' !in p
    ensures forall a, b :: !LazyPair(s, j, p, q, a, b)
  {
    FindLazySound(s, j, p);
    FindLazySound(s, a0 + |p|, q);
    forall a, b | j <= a && NoBreak(s, j, a) && At(s, a, p) && a + |p| <= b && NoBreak(s, a + |p|, b)
      ensures !At(s, b, q)
    {
      assert a0 <= a;
      NoBreakOver(s, a, p);
      NoBreakJoin(s, j, a, a + |p|);
      NoBreakJoin(s, j, a + |p|, b);
      NoBreakWithin(s, j, b, a0 + |p|);
    }
  }

  /** The first `p` and the first `q` after it give the least match of the two groups. */
  lemma FirstPairLeast(s: Text, j: nat, p: Text, q: Text, a: nat, b: nat)
    requires j <= |s| && FindLazy(s, j, p) == Some(a)
    requires a + |p| <= |s| && FindLazy(s, a + |p|, q) == Some(b)
    ensures LazyPair(s, j, p, q, a, b)
    ensures forall a', b' :: LazyPair(s, j, p, q, a', b') ==> a < a' || (a == a' && b <= b')
  {
    FindLazySound(s, j, p);
    FindLazySound(s, a + |p|, q);
    assert forall a' :: j <= a' < a ==> !At(s, a', p);
    assert forall b' :: a + |p| <= b' < b ==> !At(s, b', q);
  }

  // ---------------------------------------------------------------------
  // format_wiki_page_content
  // ---------------------------------------------------------------------

  /**
   * Where a match of `<a href="(edit\.php.*?)">(.*?)</a>` starting at `i`
   * ends, if there is one: the first `">` after `edit.php`, then the first
   * `</a>` after it, each on the same line.
   */
  function EditMatchAt(s: Text, i: nat): (r: Option<nat>)
    requires i <= |s|
    ensures r.Some? ==> i < r.value <= |s|
  {
    if !At(s, i, EditOpen) then None
    else
      match FindLazy(s, i + |EditOpen|, AttrEnd)
      case None => None
      case Some(a) =>
        match FindLazy(s, a + |AttrEnd|, AnchorEnd)
        case None => None
        case Some(b) => Some(b + |AnchorEnd|)
  }

  /**
   * One way the edit pattern can match from `i` when PCRE is free to
   * backtrack: `">` at `a`, `</a>` at `b`, both groups on one line.
   */
  ghost predicate EditAnchor(s: Text, i: int, a: int, b: int) {
    At(s, i, EditOpen) && LazyPair(s, i + |EditOpen|, AttrEnd, AnchorEnd, a, b)
  }

  /**
   * The single left-to-right attempt of EditMatchAt finds a match exactly
   * when a backtracking matcher does, and the same one: the least `">`
   * position, then the least `</a>` position after it.
   */
  lemma EditMatchIsLeftmostLazy(s: Text, i: nat)
    requires i <= |s|
    ensures EditMatchAt(s, i).None? <==> forall a, b :: !EditAnchor(s, i, a, b)
    ensures EditMatchAt(s, i).Some? ==>
      exists a, b :: EditAnchor(s, i, a, b) && EditMatchAt(s, i).value == b + |AnchorEnd| &&
        (forall a', b' :: EditAnchor(s, i, a', b') ==> a < a' || (a == a' && b <= b'))
  {
    if At(s, i, EditOpen) {
      var j := i + |EditOpen|;
      match FindLazy(s, j, AttrEnd)
      case None =>
        NoFirstNoPair(s, j, AttrEnd, AnchorEnd);
      case Some(a) =>
        match FindLazy(s, a + |AttrEnd|, AnchorEnd)
        case None =>
          assert '\n' !in AttrEnd;
          NoSecondNoPair(s, j, AttrEnd, AnchorEnd, a);
        case Some(b) =>
          FirstPairLeast(s, j, AttrEnd, AnchorEnd, a, b);
          assert EditAnchor(s, i, a, b);
    }
  }

  /** `preg_replace` of the edit pattern with the empty text, from position `i` on: it only removes. */
  function RemoveEditFrom(s: Text, i: nat): (r: Text)
    requires i <= |s|
    ensures |r| <= |s| - i
    decreases |s| - i
  {
    if i == |s| then ""
    else
      match EditMatchAt(s, i)
      case Some(e) => RemoveEditFrom(s, e)
      case None => [s[i]] + RemoveEditFrom(s, i + 1)
  }

  /** A digit right after `mod/wiki/view.php?pageid=` at position `i`. */
  predicate ViewLinkAt(s: Text, i: int) {
    At(s, i, ViewUrl) && i + |ViewUrl| < |s| && IsDigit(s[i + |ViewUrl|])
  }

  /**
   * `preg_replace` of `(mod/wiki/view\.php\?pageid=(\d))` with
   * `mod/wikifilter/view.php?id=M&pageid=$2`, from position `i` on: only the
   * first digit belongs to the match, the digits after it stay as text.
   */
  function RewriteViewFrom(s: Text, moduleId: Text, i: nat): (r: Text)
    requires i <= |s|
    ensures |r| >= |s| - i
    decreases |s| - i
  {
    if i == |s| then ""
    else if ViewLinkAt(s, i) then
      FilterViewUrl(moduleId) + [s[i + |ViewUrl|]] + RewriteViewFrom(s, moduleId, i + |ViewUrl| + 1)
    else [s[i]] + RewriteViewFrom(s, moduleId, i + 1)
  }

  /** `format_wiki_page_content(moduleId, content)`: edit links first, then view links. */
  function FormatWikiPageContent(moduleId: Text, content: Text): Text {
    var noEdit := RemoveEditFrom(content, 0);
    RewriteViewFrom(noEdit, moduleId, 0)
  }

  /** Moving one character from the kept text onto the scanned prefix. */
  lemma AppendShift(s: Text, i: nat, j: nat, rest: Text)
    requires i < j <= |s|
    ensures [s[i]] + (s[i + 1..j] + rest) == s[i..j] + rest
  {
    assert s[i..j] == [s[i]] + s[i + 1..j];
  }

  lemma RemoveEditStep(s: Text, i: nat)
    requires i < |s| && !At(s, i, EditOpen)
    ensures RemoveEditFrom(s, i) == [s[i]] + RemoveEditFrom(s, i + 1)
  {
  }

  lemma {:induction false} RemoveEditSkip(s: Text, i: nat, j: nat)
    requires i <= j <= |s|
    requires forall k :: i <= k < j ==> !At(s, k, EditOpen)
    ensures RemoveEditFrom(s, i) == s[i..j] + RemoveEditFrom(s, j)
    decreases j - i
  {
    if i < j {
      RemoveEditStep(s, i);
      RemoveEditSkip(s, i + 1, j);
      AppendShift(s, i, j, RemoveEditFrom(s, j));
    }
  }

  lemma {:induction false} RewriteViewSkip(s: Text, moduleId: Text, i: nat, j: nat)
    requires i <= j <= |s|
    requires forall k :: i <= k < j ==> !ViewLinkAt(s, k)
    ensures RewriteViewFrom(s, moduleId, i) == s[i..j] + RewriteViewFrom(s, moduleId, j)
    decreases j - i
  {
    if i < j {
      assert RewriteViewFrom(s, moduleId, i) == [s[i]] + RewriteViewFrom(s, moduleId, i + 1);
      RewriteViewSkip(s, moduleId, i + 1, j);
      AppendShift(s, i, j, RewriteViewFrom(s, moduleId, j));
    }
  }

  /** Content in which neither pattern matches anywhere comes back unchanged. */
  lemma FormatWithoutLinks(moduleId: Text, content: Text)
    requires forall k :: 0 <= k < |content| ==> !At(content, k, EditOpen) && !ViewLinkAt(content, k)
    ensures FormatWikiPageContent(moduleId, content) == content
  {
    RemoveEditSkip(content, 0, |content|);
    assert content[0..|content|] == content;
    assert RemoveEditFrom(content, |content|) == "";
    assert RemoveEditFrom(content, 0) == content;
    RewriteViewSkip(content, moduleId, 0, |content|);
    assert RewriteViewFrom(content, moduleId, |content|) == "";
  }

  /** An edit link is removed whole, its text with it. */
  lemma EditLinkRemoved(s: Text, i: nat)
    requires i <= |s| && EditMatchAt(s, i).Some?
    ensures exists a, b :: EditAnchor(s, i, a, b) && RemoveEditFrom(s, i) == RemoveEditFrom(s, b + |AnchorEnd|)
  {
    EditMatchIsLeftmostLazy(s, i);
  }

  /** A view link gets the module's URL; the digits after its first one are kept as they are. */
  lemma ViewLinkRewritten(moduleId: Text, digits: Text, rest: Text)
    requires IsId(digits)
    ensures RewriteViewFrom(ViewUrl + digits + rest, moduleId, 0) ==
      FilterViewUrl(moduleId) + [digits[0]] + RewriteViewFrom(ViewUrl + digits + rest, moduleId, |ViewUrl| + 1)
  {
    var s := ViewUrl + digits + rest;
    assert s[..|ViewUrl|] == ViewUrl && s[|ViewUrl|] == digits[0];
  }

  /** `…pageid=12` becomes `…id=M&pageid=12`: the second digit is copied as text. */
  lemma TrailingDigitKept(moduleId: Text)
    ensures RewriteViewFrom(ViewUrl + "12", moduleId, 0) == FilterViewUrl(moduleId) + "12"
  {
    var s := ViewUrl + "12";
    ViewLinkRewritten(moduleId, "12", "");
    assert s == ViewUrl + "12" + "";
    assert !ViewLinkAt(s, |ViewUrl| + 1);
    assert RewriteViewFrom(s, moduleId, |ViewUrl| + 1) == "2";
  }

  // ---------------------------------------------------------------------
  // process_wiki_page_links
  // ---------------------------------------------------------------------

  /**
   * `str_replace(f, r, s)`: every occurrence of `f`, left to right, without
   * overlap, becomes `r`; an empty `f` changes nothing. The scan goes over
   * the text that remains, so the text after a replaced occurrence is
   * replaced as if it stood alone.
   */
  function ReplaceAll(s: Text, f: Text, r: Text): (out: Text)
    ensures |f| == 0 ==> out == s
    decreases |s|
  {
    if s == [] then ""
    else if |f| > 0 && At(s, 0, f) then r + ReplaceAll(s[|f|..], f, r)
    else [s[0]] + ReplaceAll(s[1..], f, r)
  }

  /** An occurrence in the tail of `s` from `j` on, seen from `s`. */
  lemma AtShift(s: Text, j: nat, i: nat, f: Text)
    requires j + i <= |s|
    ensures At(s, j + i, f) <==> At(s[j..], i, f)
  {
    if j + i + |f| <= |s| {
      assert s[j..][i..i + |f|] == s[j + i..j + i + |f|];
    }
  }

  /** Where `f` does not start, `str_replace` copies the text character by character. */
  lemma {:induction false} ReplaceSkip(s: Text, f: Text, r: Text, j: nat)
    requires j <= |s|
    requires forall k :: 0 <= k < j ==> !At(s, k, f)
    ensures ReplaceAll(s, f, r) == s[..j] + ReplaceAll(s[j..], f, r)
    decreases j
  {
    if j == 0 {
      assert s[..0] == [] && s[0..] == s;
    } else {
      var t := s[1..];
      assert !At(s, 0, f);
      assert ReplaceAll(s, f, r) == [s[0]] + ReplaceAll(t, f, r);
      forall k | 0 <= k < j - 1 ensures !At(t, k, f) {
        AtShift(s, 1, k, f);
        assert !At(s, 1 + k, f);
      }
      ReplaceSkip(t, f, r, j - 1);
      assert t[j - 1..] == s[j..];
      assert [s[0]] + t[..j - 1] == s[..j];
    }
  }

  /** A text in which `f` never occurs comes back unchanged. */
  lemma ReplaceAbsent(s: Text, f: Text, r: Text)
    requires forall k :: 0 <= k < |s| ==> !At(s, k, f)
    ensures ReplaceAll(s, f, r) == s
  {
    ReplaceSkip(s, f, r, |s|);
    assert s[..|s|] == s && s[|s|..] == [];
  }

  /**
   * The first occurrence of `f`, with nothing before it that could match,
   * becomes `r`; the text before it is kept and the text after it is
   * replaced on its own.
   */
  lemma ReplaceFirst(a: Text, f: Text, b: Text, r: Text)
    requires |f| > 0
    requires forall k :: 0 <= k < |a| ==> !At(a + f + b, k, f)
    ensures ReplaceAll(a + f + b, f, r) == a + r + ReplaceAll(b, f, r)
  {
    var s := a + f + b;
    ReplaceSkip(s, f, r, |a|);
    assert s[..|a|] == a;
    var g := s[|a|..];
    assert g == f + b;
    assert g[..|f|] == f && g[|f|..] == b;
    assert At(g, 0, f);
  }

  /**
   * An occurrence of `f` with no occurrence starting before it splits
   * `str_replace` in two: the text before it, `r`, and the text after it,
   * each replaced on its own.
   */
  lemma ReplaceSplit(a: Text, f: Text, b: Text, r: Text)
    requires |f| > 0
    requires forall k :: 0 <= k < |a| ==> !At(a + f + b, k, f)
    ensures ReplaceAll(a + f + b, f, r) == ReplaceAll(a, f, r) + r + ReplaceAll(b, f, r)
  {
    var s := a + f + b;
    ReplaceFirst(a, f, b, r);
    forall k | 0 <= k < |a| ensures !At(a, k, f) {
      assert !At(s, k, f);
      if k + |f| <= |a| {
        assert s[k..k + |f|] == a[k..k + |f|];
      }
    }
    ReplaceAbsent(a, f, r);
  }

  /** An occurrence that does not start in `x` of `x + y` is an occurrence in `y`, and back. */
  lemma ConcatShift(x: Text, y: Text, j: nat, k: nat, f: Text)
    requires j <= |x| && (x + y)[j..] == x[j..] + y && j + k <= |x + y|
    ensures At(x + y, j + k, f) <==> At(x[j..] + y, k, f)
  {
    AtShift(x + y, j, k, f);
  }

  /**
   * `str_replace` of a concatenation is the concatenation of the two parts
   * replaced on their own when no occurrence of `f` straddles the join.
   */
  lemma {:induction false} ReplaceConcat(x: Text, y: Text, f: Text, r: Text)
    requires |f| > 0
    requires forall k :: 0 <= k < |x| < k + |f| ==> !At(x + y, k, f)
    ensures ReplaceAll(x + y, f, r) == ReplaceAll(x, f, r) + ReplaceAll(y, f, r)
    decreases |x|
  {
    var s := x + y;
    if x == [] {
      assert s == y;
    } else {
      var j := if At(s, 0, f) then |f| else 1;
      if At(s, 0, f) {
        assert s[..|f|] == x[..|f|];
        assert At(x, 0, f);
      } else {
        assert s[0] == x[0];
        assert !At(x, 0, f) by {
          if |f| <= |x| {
            assert s[..|f|] == x[..|f|];
          }
        }
      }
      var x' := x[j..];
      assert s[j..] == x' + y;
      forall k | 0 <= k < |x'| < k + |f| ensures !At(x' + y, k, f) {
        ConcatShift(x, y, j, k, f);
      }
      ReplaceConcat(x', y, f, r);
    }
  }

  /**
   * A join next to a character that `f` does not contain cannot be
   * straddled, so `str_replace` works on each side on its own.
   */
  lemma ReplaceCut(x: Text, y: Text, f: Text, r: Text, c: char)
    requires |f| > 0 && c !in f
    requires (|x| > 0 && x[|x| - 1] == c) || (|y| > 0 && y[0] == c)
    ensures ReplaceAll(x + y, f, r) == ReplaceAll(x, f, r) + ReplaceAll(y, f, r)
  {
    var s := x + y;
    forall k | 0 <= k < |x| < k + |f| ensures !At(s, k, f) {
      if |x| > 0 && x[|x| - 1] == c {
        assert f[|x| - 1 - k] in f;
        NotAtByChar(s, k, f, |x| - 1 - k);
      } else if |x| < |s| {
        assert f[|x| - k] in f;
        NotAtByChar(s, k, f, |x| - k);
      }
    }
    ReplaceConcat(x, y, f, r);
  }

  /** A text shorter than `f` holds no occurrence of it. */
  lemma ReplaceShort(s: Text, f: Text, r: Text)
    requires |s| < |f|
    ensures ReplaceAll(s, f, r) == s
  {
    ReplaceAbsent(s, f, r);
  }

  /**
   * The view URL of page `id` holds the view URL of page `x` only when `x`
   * is a prefix of `id`: after `base` come digits, and `base` ends in `=`.
   */
  lemma ReplaceUrl(base: Text, id: Text, x: Text, r: Text)
    requires IsId(id) && IsId(x) && |base| > 0 && base[|base| - 1] == '='
    requires x <= id ==> x == id
    ensures ReplaceAll(base + id, base + x, r) == if id == x then r else base + id
  {
    var u := base + id;
    var f := base + x;
    if id == x {
      ReplaceFirst([], f, [], r);
      assert [] + f + [] == u;
    } else {
      forall k | 0 <= k < |u| ensures !At(u, k, f) {
        if k == 0 {
          if |f| <= |u| {
            forall j | 0 <= j < |x| ensures u[..|f|][|base| + j] == id[j] {
            }
            assert u[..|f|][|base|..] == id[..|x|];
            assert f[|base|..] == x;
          }
        } else if k + |base| - 1 < |u| {
          assert u[k + |base| - 1] == id[k - 1];
          NotAtByChar(u, k, f, |base| - 1);
        }
      }
      ReplaceAbsent(u, f, r);
    }
  }

  /**
   * The placeholder does not avoid collisions: when page 1 is denied, the
   * URL of page 12 shares its prefix and becomes `inaccessiblelink2`.
   */
  lemma PrefixCollision(wwwroot: Text)
    ensures ReplaceAll(WikiViewBase(wwwroot) + "12", WikiViewBase(wwwroot) + "1", Placeholder) == Placeholder + "2"
  {
    var f := WikiViewBase(wwwroot) + "1";
    var s := WikiViewBase(wwwroot) + "12";
    assert s == [] + f + "2";
    ReplaceFirst([], f, "2", Placeholder);
    var two: Text := "2";
    assert !At(two, 0, f);
    assert two[1..] == "";
    assert ReplaceAll(two, f, Placeholder) == "2";
  }

  datatype UrlMatch = UrlMatch(pos: nat, pageId: Text)

  /** `base` followed by a digit at position `i`. */
  predicate UrlAt(s: Text, i: int, base: Text) {
    At(s, i, base) && i + |base| < |s| && IsDigit(s[i + |base|])
  }

  /** The end of the run of digits starting at `j`. */
  function DigitsEnd(s: Text, j: nat): (e: nat)
    requires j <= |s|
    ensures j <= e <= |s|
    ensures forall m :: j <= m < e ==> IsDigit(s[m])
    ensures e < |s| ==> !IsDigit(s[e])
    decreases |s| - j
  {
    if j < |s| && IsDigit(s[j]) then DigitsEnd(s, j + 1) else j
  }

  /**
   * `preg_match_all("|base(\d+)|", s)` from position `i`: the leftmost
   * matches, without overlap, each with the longest run of digits.
   */
  function MatchesFrom(s: Text, base: Text, i: nat): (ms: seq<UrlMatch>)
    requires i <= |s|
    ensures forall m :: m in ms ==> i <= m.pos && IsId(m.pageId) && At(s, m.pos, base + m.pageId)
    ensures forall m :: m in ms && m.pos + |base| + |m.pageId| < |s| ==> !IsDigit(s[m.pos + |base| + |m.pageId|])
    decreases |s| - i
  {
    if i == |s| then []
    else if UrlAt(s, i, base) then
      var e := DigitsEnd(s, i + |base| + 1);
      var id := s[i + |base|..e];
      assert s[i..e] == base + id;
      [UrlMatch(i, id)] + MatchesFrom(s, base, e)
    else MatchesFrom(s, base, i + 1)
  }

  /** The page ids of matches, in match order. */
  function PageIds(ms: seq<UrlMatch>): (ids: seq<Text>)
    ensures |ids| == |ms| && forall k :: 0 <= k < |ms| ==> ids[k] == ms[k].pageId
    decreases |ms|
  {
    if ms == [] then [] else [ms[0].pageId] + PageIds(ms[1..])
  }

  /**
   * The ids `preg_match_all("|base(\d+)|", s)` finds, scanning the text
   * that remains as `str_replace` does.
   */
  function MatchIds(s: Text, base: Text): seq<Text>
    decreases |s|
  {
    if s == [] then []
    else if UrlAt(s, 0, base) then
      var e := DigitsEnd(s, |base| + 1);
      [s[|base|..e]] + MatchIds(s[e..], base)
    else MatchIds(s[1..], base)
  }

  /** The run of digits ends at the same place seen from the tail of the text. */
  lemma {:induction false} DigitsEndShift(s: Text, i: nat, j: nat)
    requires i <= j <= |s|
    ensures DigitsEnd(s, j) == i + DigitsEnd(s[i..], j - i)
    decreases |s| - j
  {
    if j < |s| {
      assert s[i..][j - i] == s[j];
      if IsDigit(s[j]) {
        DigitsEndShift(s, i, j + 1);
      }
    }
  }

  lemma UrlAtShift(s: Text, i: nat, base: Text)
    requires i <= |s|
    ensures UrlAt(s, i, base) <==> UrlAt(s[i..], 0, base)
  {
    AtShift(s, i, 0, base);
    if i + |base| < |s| {
      assert s[i..][|base|] == s[i + |base|];
    }
  }

  /** The matches `MatchesFrom` finds from `i` have the ids `MatchIds` finds in the text from `i`. */
  lemma {:induction false} MatchesIds(s: Text, base: Text, i: nat)
    requires i <= |s|
    ensures PageIds(MatchesFrom(s, base, i)) == MatchIds(s[i..], base)
    decreases |s| - i
  {
    if i < |s| {
      var t := s[i..];
      UrlAtShift(s, i, base);
      if UrlAt(s, i, base) {
        var e := DigitsEnd(s, i + |base| + 1);
        DigitsEndShift(s, i, i + |base| + 1);
        var e' := DigitsEnd(t, |base| + 1);
        assert e == i + e';
        assert s[i + |base|..e] == t[|base|..e'];
        assert t[e'..] == s[e..];
        MatchesIds(s, base, e);
        var m := UrlMatch(i, s[i + |base|..e]);
        assert ([m] + MatchesFrom(s, base, e))[1..] == MatchesFrom(s, base, e);
      } else {
        assert t[1..] == s[i + 1..];
        MatchesIds(s, base, i + 1);
      }
    }
  }

  /** An occurrence of `p` at `k` shows `p`'s characters from `k` on. */
  lemma AtChar(s: Text, k: int, p: Text, j: int)
    requires At(s, k, p) && 0 <= j < |p|
    ensures s[k + j] == p[j]
  {
    assert s[k..k + |p|][j] == s[k + j];
  }

  /** The run of digits from `j` stops inside `x` when a non-digit ends `x` or starts `y`. */
  lemma {:induction false} DigitsEndCut(x: Text, y: Text, j: nat, c: char)
    requires !IsDigit(c)
    requires (j < |x| && x[|x| - 1] == c) || (j <= |x| && |y| > 0 && y[0] == c)
    ensures DigitsEnd(x + y, j) == DigitsEnd(x, j) && DigitsEnd(x, j) < |x| + |y|
    ensures j < |x| && x[|x| - 1] == c ==> DigitsEnd(x, j) < |x|
    decreases |x| - j
  {
    var s := x + y;
    if j < |x| {
      assert s[j] == x[j];
      if IsDigit(x[j]) {
        DigitsEndCut(x, y, j + 1, c);
      }
    } else {
      assert s[j] == y[0];
    }
  }

  /** Whether a match starts at the front is decided inside `x`, when the join is next to such a character. */
  lemma UrlAtCut(x: Text, y: Text, base: Text, c: char)
    requires !IsDigit(c) && c !in base && x != []
    requires x[|x| - 1] == c || (|y| > 0 && y[0] == c)
    ensures UrlAt(x + y, 0, base) <==> UrlAt(x, 0, base)
  {
    var s := x + y;
    if UrlAt(s, 0, base) {
      if x[|x| - 1] == c {
        assert s[|x| - 1] == c;
        if |x| - 1 < |base| {
          AtChar(s, 0, base, |x| - 1);
          assert false;
        }
      } else {
        assert s[|x|] == c;
        if |x| < |base| {
          AtChar(s, 0, base, |x|);
          assert false;
        }
      }
      assert s[|base|] == x[|base|];
      assert x[..|base|] == s[..|base|];
    }
    if UrlAt(x, 0, base) {
      assert s[|base|] == x[|base|];
      assert x[..|base|] == s[..|base|];
    }
  }

  /**
   * A join next to a character that is neither a digit nor in `base` is
   * not crossed by a match, so the matches of `x + y` are those of `x`
   * and then those of `y`.
   */
  lemma {:induction false} MatchCut(x: Text, y: Text, base: Text, c: char)
    requires !IsDigit(c) && c !in base
    requires |x| == 0 || x[|x| - 1] == c || (|y| > 0 && y[0] == c)
    ensures MatchIds(x + y, base) == MatchIds(x, base) + MatchIds(y, base)
    decreases |x|
  {
    var s := x + y;
    if x == [] {
      assert s == y;
    } else {
      UrlAtCut(x, y, base, c);
      if UrlAt(x, 0, base) {
        DigitsEndCut(x, y, |base| + 1, c);
        var e := DigitsEnd(x, |base| + 1);
        assert s[|base|..e] == x[|base|..e];
        assert s[e..] == x[e..] + y;
        MatchCut(x[e..], y, base, c);
      } else {
        assert s[1..] == x[1..] + y;
        MatchCut(x[1..], y, base, c);
      }
    }
  }

  /** A text in which `base` never occurs has no matches. */
  lemma {:induction false} MatchAbsent(s: Text, base: Text)
    requires forall k :: 0 <= k < |s| ==> !At(s, k, base)
    ensures MatchIds(s, base) == []
    decreases |s|
  {
    if s != [] {
      assert !At(s, 0, base);
      forall k | 0 <= k < |s| - 1 ensures !At(s[1..], k, base) {
        AtShift(s, 1, k, base);
      }
      MatchAbsent(s[1..], base);
    }
  }

  /** A text shorter than `base` has no matches. */
  lemma MatchShort(s: Text, base: Text)
    requires |s| < |base|
    ensures MatchIds(s, base) == []
  {
    MatchAbsent(s, base);
  }

  /** The view URL of a page, standing alone, is one match: that page's id. */
  lemma MatchUrl(base: Text, id: Text)
    requires IsId(id)
    ensures MatchIds(base + id, base) == [id]
  {
    var u := base + id;
    assert u[..|base|] == base;
    assert u[|base|] == id[0];
    assert UrlAt(u, 0, base);
    assert DigitsEnd(u, |base| + 1) == |u| by {
      DigitsRunToEnd(u, |base| + 1, |base|);
    }
    assert u[|base|..|u|] == id;
    assert u[|u|..] == [];
  }

  /** Digits up to the end of the text run to the end. */
  lemma {:induction false} DigitsRunToEnd(s: Text, j: nat, from: nat)
    requires from <= j <= |s| && forall m :: from <= m < |s| ==> IsDigit(s[m])
    ensures DigitsEnd(s, j) == |s|
    decreases |s| - j
  {
    if j < |s| {
      DigitsRunToEnd(s, j + 1, from);
    }
  }

  /** Where the `</a>` of `<a href="inaccessiblelink">(.*?)</a>` starting at `i` is, if it matches. */
  function PlaceholderMatchAt(s: Text, i: nat): Option<nat>
    requires i <= |s|
  {
    if At(s, i, PlaceholderOpen) then FindLazy(s, i + |PlaceholderOpen|, AnchorEnd) else None
  }

  /**
   * `preg_replace` of that pattern with its group: it only removes. The
   * scan goes over the text that remains, as for `str_replace`.
   */
  function Collapse(s: Text): (r: Text)
    ensures |r| <= |s|
    decreases |s|
  {
    if s == [] then ""
    else
      match PlaceholderMatchAt(s, 0)
      case Some(b) => s[|PlaceholderOpen|..b] + Collapse(s[b + |AnchorEnd|..])
      case None => [s[0]] + Collapse(s[1..])
  }

  /** Whether the lazy search finds anything does not depend on the text before it. */
  lemma {:induction false} FindLazyShift(s: Text, j: nat, i: nat, p: Text)
    requires j + i <= |s|
    ensures FindLazy(s[j..], i, p).None? <==> FindLazy(s, j + i, p).None?
    decreases |s| - (j + i)
  {
    AtShift(s, j, i, p);
    if !At(s, j + i, p) && j + i < |s| {
      assert s[j..][i] == s[j + i];
      if s[j + i] != '\n' {
        FindLazyShift(s, j, i + 1, p);
      }
    }
  }

  /** Nor whether the placeholder anchor matches. */
  lemma PlaceholderMatchShift(s: Text, j: nat, i: nat)
    requires j + i <= |s|
    ensures PlaceholderMatchAt(s[j..], i).None? <==> PlaceholderMatchAt(s, j + i).None?
  {
    AtShift(s, j, i, PlaceholderOpen);
    if At(s, j + i, PlaceholderOpen) {
      FindLazyShift(s, j, i + |PlaceholderOpen|, AnchorEnd);
    }
  }

  /** One character where no placeholder anchor matches is copied. */
  lemma CollapseStep(s: Text)
    requires |s| > 0 && PlaceholderMatchAt(s, 0).None?
    ensures Collapse(s) == [s[0]] + Collapse(s[1..])
  {
  }

  /** Where no placeholder anchor matches in `s`, none matches in its tail. */
  lemma NoMatchInTail(s: Text, j: nat)
    requires 0 < j <= |s|
    requires forall k :: 0 <= k < j ==> PlaceholderMatchAt(s, k).None?
    ensures forall k :: 0 <= k < j - 1 ==> PlaceholderMatchAt(s[1..], k).None?
  {
    forall k | 0 <= k < j - 1 ensures PlaceholderMatchAt(s[1..], k).None? {
      PlaceholderMatchShift(s, 1, k);
    }
  }

  /** Where no placeholder anchor matches, the collapse pass copies the text character by character. */
  lemma {:induction false} CollapseSkip(s: Text, j: nat)
    requires j <= |s|
    requires forall k :: 0 <= k < j ==> PlaceholderMatchAt(s, k).None?
    ensures Collapse(s) == s[..j] + Collapse(s[j..])
    decreases j
  {
    if j == 0 {
      assert s[..0] == [] && s[0..] == s;
    } else {
      var t := s[1..];
      CollapseStep(s);
      NoMatchInTail(s, j);
      CollapseSkip(t, j - 1);
      assert t[j - 1..] == s[j..] && t[..j - 1] == s[1..j];
      AppendShift(s, 0, j, Collapse(s[j..]));
      assert s[0..j] == s[..j];
    }
  }

  /** A text in which no placeholder anchor matches comes back unchanged. */
  lemma CollapseAbsent(s: Text)
    requires forall k :: 0 <= k < |s| ==> PlaceholderMatchAt(s, k).None?
    ensures Collapse(s) == s
  {
    CollapseSkip(s, |s|);
    assert s[..|s|] == s && s[|s|..] == [];
  }

  /**
   * A neutralised anchor around one line of text, markup included, up to
   * the first `</a>` leaves that text.
   */
  lemma PlaceholderAnchorCollapsed(s: Text, b: nat)
    requires At(s, 0, PlaceholderOpen) && |PlaceholderOpen| <= b && At(s, b, AnchorEnd)
    requires NoBreak(s, |PlaceholderOpen|, b)
    requires forall m :: |PlaceholderOpen| <= m < b ==> !At(s, m, AnchorEnd)
    ensures Collapse(s) == s[|PlaceholderOpen|..b] + Collapse(s[b + |AnchorEnd|..])
  {
    FindLazyFirst(s, |PlaceholderOpen|, AnchorEnd, b);
  }

  /** `<` opens the placeholder anchor and occurs nowhere else in it. */
  lemma PlaceholderOpenOneBracket()
    ensures forall j :: 0 < j < |PlaceholderOpen| ==> PlaceholderOpen[j] != '<'
  {
  }

  /**
   * With no placeholder anchor in `a`, none starts in `a` in front of a
   * text that begins with `<`: the anchor's `<` occurs only at its start.
   */
  lemma NoPlaceholderInFront(a: Text, rest: Text)
    requires forall k :: 0 <= k < |a| ==> !At(a, k, PlaceholderOpen)
    requires |rest| > 0 && rest[0] == '<'
    ensures forall k :: 0 <= k < |a| ==> PlaceholderMatchAt(a + rest, k).None?
  {
    var s := a + rest;
    PlaceholderOpenOneBracket();
    forall k | 0 <= k < |a| ensures !At(s, k, PlaceholderOpen) {
      if k + |PlaceholderOpen| <= |a| {
        assert !At(a, k, PlaceholderOpen);
        assert s[k..k + |PlaceholderOpen|] == a[k..k + |PlaceholderOpen|];
      } else if k + |PlaceholderOpen| <= |s| {
        assert s[|a|] == '<';
        assert PlaceholderOpen[|a| - k] != '<';
        assert s[k..k + |PlaceholderOpen|][|a| - k] == s[|a|];
      }
    }
  }

  /**
   * In a line `t` without `</a>` followed by `</a>`, the first `</a>` is
   * that one: `</a>` cannot begin inside `t` and end in the `</a>` after.
   */
  lemma AnchorEndAfter(s: Text, j: nat, t: Text)
    requires j + |t| <= |s| && s[j..j + |t|] == t && At(s, j + |t|, AnchorEnd)
    requires forall k :: 0 <= k < |t| ==> !At(t, k, AnchorEnd)
    ensures forall m :: j <= m < j + |t| ==> !At(s, m, AnchorEnd)
  {
    var e := j + |t|;
    assert s[e..e + |AnchorEnd|] == AnchorEnd;
    assert s[e] == s[e..e + |AnchorEnd|][0];
    forall m | j <= m < e ensures !At(s, m, AnchorEnd) {
      if m + |AnchorEnd| <= e {
        assert !At(t, m - j, AnchorEnd);
        var w := s[m..m + |AnchorEnd|];
        forall x | 0 <= x < |AnchorEnd| ensures w[x] == t[m - j + x] {
          assert w[x] == s[m + x] == s[j..j + |t|][m - j + x];
        }
        assert w == t[m - j..m - j + |AnchorEnd|];
      } else {
        assert AnchorEnd[e - m] != '<';
        assert s[m..m + |AnchorEnd|][e - m] == s[e];
      }
    }
  }

  /** One character that differs rules an occurrence out. */
  lemma NotAtByChar(s: Text, k: nat, p: Text, j: nat)
    requires j < |p| && k + j < |s| && s[k + j] != p[j]
    ensures !At(s, k, p)
  {
    if k + |p| <= |s| {
      assert s[k..k + |p|][j] == s[k + j];
    }
  }

  /** `<` opens an anchor and occurs nowhere else in `<a href="`. */
  lemma HrefOpenOneBracket()
    ensures forall j :: 0 < j < |HrefOpen| ==> HrefOpen[j] != '<'
  {
  }

  /** A front of the text where no placeholder anchor starts is kept as it is. */
  lemma CollapseKeepFront(p: Text, rest: Text)
    requires forall k :: 0 <= k < |p| ==> !At(p + rest, k, PlaceholderOpen)
    ensures Collapse(p + rest) == p + Collapse(rest)
  {
    CollapseSkip(p + rest, |p|);
    assert (p + rest)[..|p|] == p && (p + rest)[|p|..] == rest;
  }

  /** Text without a placeholder anchor in front of a `<` is kept as it is. */
  lemma CollapseFront(a: Text, rest: Text)
    requires forall k :: 0 <= k < |a| ==> !At(a, k, PlaceholderOpen)
    requires |rest| > 0 && rest[0] == '<'
    ensures Collapse(a + rest) == a + Collapse(rest)
  {
    NoPlaceholderInFront(a, rest);
    CollapseSkip(a + rest, |a|);
    assert (a + rest)[..|a|] == a && (a + rest)[|a|..] == rest;
  }

  /** Text without `<` is kept as it is. */
  lemma CollapseKeep(p: Text, rest: Text)
    requires '<' !in p
    ensures Collapse(p + rest) == p + Collapse(rest)
  {
    var s := p + rest;
    forall k | 0 <= k < |p| ensures !At(s, k, PlaceholderOpen) {
      assert s[k] == p[k];
      NotAtByChar(s, k, PlaceholderOpen, 0);
    }
    CollapseKeepFront(p, rest);
  }

  /** An opening whose URL has no `"` where the placeholder has its closing quote is not the placeholder anchor. */
  lemma HrefNotPlaceholder(rest: Text)
    requires |rest| > |Placeholder| && rest[|Placeholder|] != '"'
    ensures !At(HrefOpen + rest, 0, PlaceholderOpen)
  {
    var q := |HrefOpen| + |Placeholder|;
    assert PlaceholderOpen[q] == '"';
    assert (HrefOpen + rest)[q] == rest[|Placeholder|];
    NotAtByChar(HrefOpen + rest, 0, PlaceholderOpen, q);
  }

  /**
   * No placeholder anchor starts in such an opening: not at its `<`, and
   * not after it, as it has no second `<`.
   */
  lemma HrefInside(rest: Text)
    requires |rest| > |Placeholder| && rest[|Placeholder|] != '"'
    ensures forall k :: 0 <= k < |HrefOpen| ==> !At(HrefOpen + rest, k, PlaceholderOpen)
  {
    HrefOpenOneBracket();
    forall k | 0 <= k < |HrefOpen| ensures !At(HrefOpen + rest, k, PlaceholderOpen) {
      if k == 0 {
        HrefNotPlaceholder(rest);
      } else {
        assert (HrefOpen + rest)[k] == HrefOpen[k];
        NotAtByChar(HrefOpen + rest, k, PlaceholderOpen, 0);
      }
    }
  }

  /**
   * An anchor whose URL has no `"` where the placeholder has its closing
   * quote is not a placeholder anchor: its opening is kept.
   */
  lemma CollapseHref(rest: Text)
    requires |rest| > |Placeholder| && rest[|Placeholder|] != '"'
    ensures Collapse(HrefOpen + rest) == HrefOpen + Collapse(rest)
  {
    HrefInside(rest);
    CollapseKeepFront(HrefOpen, rest);
  }

  /** A closing `</a>` is not a placeholder anchor and is kept. */
  lemma CollapseAnchorEnd(rest: Text)
    ensures Collapse(AnchorEnd + rest) == AnchorEnd + Collapse(rest)
  {
    var s := AnchorEnd + rest;
    forall k | 0 <= k < |AnchorEnd| ensures !At(s, k, PlaceholderOpen) {
      assert s[k] == AnchorEnd[k];
      if k == 0 {
        assert s[1] == AnchorEnd[1];
        NotAtByChar(s, 0, PlaceholderOpen, 1);
      } else {
        NotAtByChar(s, k, PlaceholderOpen, 0);
      }
    }
    CollapseKeepFront(AnchorEnd, rest);
  }

  /** The placeholder anchor around a one-line text without `</a>` becomes that text. */
  lemma CollapseNeutralised(t: Text, rest: Text)
    requires '\n' !in t && forall k :: 0 <= k < |t| ==> !At(t, k, AnchorEnd)
    ensures Collapse(PlaceholderOpen + (t + (AnchorEnd + rest))) == t + Collapse(rest)
  {
    var s := PlaceholderOpen + (t + (AnchorEnd + rest));
    var start := |PlaceholderOpen|;
    var b := start + |t|;
    assert s[..start] == PlaceholderOpen;
    assert s[start..b] == t;
    assert s[b..b + |AnchorEnd|] == AnchorEnd;
    forall m | start <= m < b ensures InLine(s, m) {
      assert s[m] == t[m - start];
    }
    AnchorEndAfter(s, start, t);
    PlaceholderAnchorCollapsed(s, b);
    assert s[b + |AnchorEnd|..] == rest;
  }

  /** The placeholder anchor around a one-line text without `</a>` collapses to the text. */
  lemma AnchorCollapsed(a: Text, t: Text, b: Text)
    requires forall k :: 0 <= k < |a| ==> !At(a, k, PlaceholderOpen)
    requires forall k :: 0 <= k < |b| ==> !At(b, k, PlaceholderOpen)
    requires '\n' !in t && forall k :: 0 <= k < |t| ==> !At(t, k, AnchorEnd)
    ensures Collapse(a + PlaceholderOpen + t + AnchorEnd + b) == a + t + b
  {
    var rest := PlaceholderOpen + (t + (AnchorEnd + b));
    Regroup5(a, PlaceholderOpen, t, AnchorEnd, b);
    assert rest[0] == PlaceholderOpen[0];
    CollapseFront(a, rest);
    CollapseNeutralised(t, b);
    CollapseAbsent(b);
  }

  /** What `can_user_view_wiki_page` needs to know about the current user. */
  datatype Viewer = Viewer(isAdmin: bool, roles: seq<Text>, grouped: map<Text, Text>, pageTags: map<Text, seq<Text>>)

  /** A page's tag ids; a page the host does not know has none. */
  function TagsOfPage(v: Viewer, pageId: Text): seq<Text> {
    if pageId in v.pageTags then v.pageTags[pageId] else []
  }

  predicate Viewable(v: Viewer, pageId: Text) {
    Permission.CanView(v.isAdmin, v.roles, v.grouped, TagsOfPage(v, pageId))
  }

  /** The loop of `process_wiki_page_links`: each denied match's URL replaced everywhere, in match order. */
  function Neutralise(content: Text, ms: seq<UrlMatch>, base: Text, v: Viewer): Text
    decreases |ms|
  {
    if ms == [] then content
    else
      var next := if Viewable(v, ms[0].pageId) then content else ReplaceAll(content, base + ms[0].pageId, Placeholder);
      Neutralise(next, ms[1..], base, v)
  }

  /** What `process_wiki_page_links` returns. */
  function ProcessedContent(v: Viewer, base: Text, content: Text): Text {
    Collapse(Neutralise(content, MatchesFrom(content, base, 0), base, v))
  }

  /**
   * `process_wiki_page_links`: every view URL of a page the user may not
   * see becomes `inaccessiblelink`, then each anchor around that token is
   * replaced by its text.
   */
  method ProcessWikiPageLinks(v: Viewer, wwwroot: Text, content: Text) returns (out: Text)
    ensures out == ProcessedContent(v, WikiViewBase(wwwroot), content)
  {
    var base := WikiViewBase(wwwroot);
    var ms := MatchesFrom(content, base, 0);
    out := content;
    var i := 0;
    while i < |ms|
      invariant 0 <= i <= |ms|
      invariant Neutralise(out, ms[i..], base, v) == Neutralise(content, ms, base, v)
    {
      var page := ms[i];
      var allowed := Permission.CanUserViewWikiPage(v.isAdmin, v.roles, v.grouped, TagsOfPage(v, page.pageId));
      if !allowed {
        out := ReplaceAll(out, base + page.pageId, Placeholder);
      }
      assert ms[i..][1..] == ms[i + 1..];
      i := i + 1;
    }
    out := Collapse(out);
  }

  /** Links to pages the user may see are left as they are. */
  lemma {:induction false} NeutraliseViewable(content: Text, ms: seq<UrlMatch>, base: Text, v: Viewer)
    requires forall m :: m in ms ==> Viewable(v, m.pageId)
    ensures Neutralise(content, ms, base, v) == content
    decreases |ms|
  {
    if ms != [] {
      assert ms[0] in ms;
      NeutraliseViewable(content, ms[1..], base, v);
    }
  }

  /**
   * When the user may see every linked page and the page holds no
   * placeholder anchor of its own, processing changes nothing.
   */
  lemma ProcessPassThrough(v: Viewer, base: Text, content: Text)
    requires forall m :: m in MatchesFrom(content, base, 0) ==> Viewable(v, m.pageId)
    requires forall k :: 0 <= k < |content| ==> PlaceholderMatchAt(content, k).None?
    ensures ProcessedContent(v, base, content) == content
  {
    NeutraliseViewable(content, MatchesFrom(content, base, 0), base, v);
    CollapseAbsent(content);
  }

  /** A site admin's page keeps every link. */
  lemma AdminKeepsLinks(v: Viewer, base: Text, content: Text)
    requires v.isAdmin
    requires forall k :: 0 <= k < |content| ==> PlaceholderMatchAt(content, k).None?
    ensures ProcessedContent(v, base, content) == content
  {
    ProcessPassThrough(v, base, content);
  }

  /**
   * A link to a page the user may not see comes out as its text: its URL
   * is the page's one match, occurs nowhere else, and the anchor's text is
   * one line without `</a>`.
   */
  lemma DeniedLinkBecomesText(v: Viewer, base: Text, id: Text, a: Text, t: Text, b: Text)
    requires IsId(id) && !Viewable(v, id)
    requires MatchesFrom(a + HrefOpen + base + id + AttrEnd + t + AnchorEnd + b, base, 0) == [UrlMatch(|a| + |HrefOpen|, id)]
    requires forall k :: 0 <= k < |a| + |HrefOpen| ==> !At(a + HrefOpen + base + id + AttrEnd + t + AnchorEnd + b, k, base + id)
    requires forall k :: 0 <= k < |AttrEnd + t + AnchorEnd + b| ==> !At(AttrEnd + t + AnchorEnd + b, k, base + id)
    requires '\n' !in t && forall k :: 0 <= k < |t| ==> !At(t, k, AnchorEnd)
    requires forall k :: 0 <= k < |a| ==> !At(a, k, PlaceholderOpen)
    requires forall k :: 0 <= k < |b| ==> !At(b, k, PlaceholderOpen)
    ensures ProcessedContent(v, base, a + HrefOpen + base + id + AttrEnd + t + AnchorEnd + b) == a + t + b
  {
    var url := base + id;
    var pre := a + HrefOpen;
    var post := AttrEnd + t + AnchorEnd + b;
    var content := a + HrefOpen + base + id + AttrEnd + t + AnchorEnd + b;
    RegroupLink(a, HrefOpen, base, id, AttrEnd, t, AnchorEnd, b);
    NeutraliseOne(content, base, v, UrlMatch(|a| + |HrefOpen|, id));
    ReplaceOnly(pre, url, post, Placeholder);
    PlaceholderAnchorForm();
    RegroupAnchor(a, HrefOpen, Placeholder, AttrEnd, t, AnchorEnd, b);
    AnchorCollapsed(a, t, b);
  }

  /*
   * The regroupings below hold for any texts; stated over variables they
   * are cheap, while inside a proof that mentions the anchor constants the
   * solver unfolds those constants character by character.
   */

  lemma RegroupLink(a: Text, h: Text, base: Text, id: Text, e: Text, t: Text, c: Text, b: Text)
    ensures a + h + base + id + e + t + c + b == (a + h) + (base + id) + (e + t + c + b)
  {
  }

  lemma RegroupAnchor(a: Text, h: Text, p: Text, e: Text, t: Text, c: Text, b: Text)
    ensures (a + h) + p + (e + t + c + b) == a + (h + p + e) + t + c + b
  {
  }

  lemma Regroup4(x: Text, y: Text, z: Text, w: Text)
    ensures x + (y + (z + w)) == x + y + z + w
  {
  }

  lemma Regroup5(x: Text, y: Text, z: Text, w: Text, u: Text)
    ensures x + y + z + w + u == x + (y + (z + (w + u)))
    ensures x + z + u == x + (z + u)
  {
  }

  /** The neutralised anchor is the one the collapse pattern looks for. */
  lemma PlaceholderAnchorForm()
    ensures HrefOpen + Placeholder + AttrEnd == PlaceholderOpen
  {
  }

  /** A page whose one match is denied gets that match's URL replaced. */
  lemma NeutraliseOne(content: Text, base: Text, v: Viewer, m: UrlMatch)
    requires MatchesFrom(content, base, 0) == [m] && !Viewable(v, m.pageId)
    ensures Neutralise(content, MatchesFrom(content, base, 0), base, v) == ReplaceAll(content, base + m.pageId, Placeholder)
  {
    assert [m][1..] == [];
  }

  /** `str_replace` of a text that occurs once. */
  lemma ReplaceOnly(pre: Text, f: Text, post: Text, r: Text)
    requires |f| > 0
    requires forall k :: 0 <= k < |pre| ==> !At(pre + f + post, k, f)
    requires forall k :: 0 <= k < |post| ==> !At(post, k, f)
    ensures ReplaceAll(pre + f + post, f, r) == pre + r + post
  {
    ReplaceSplit(pre, f, post, r);
    forall k | 0 <= k < |pre| ensures !At(pre, k, f) {
      assert !At(pre + f + post, k, f);
      if k + |f| <= |pre| {
        assert (pre + f + post)[k..k + |f|] == pre[k..k + |f|];
      }
    }
    ReplaceAbsent(pre, f, r);
    ReplaceAbsent(post, f, r);
  }


  /** The order `print_wiki_page_content` applies the two passes in. */
  function RenderedLinks(v: Viewer, wwwroot: Text, moduleId: Text, content: Text): Text {
    FormatWikiPageContent(moduleId, ProcessedContent(v, WikiViewBase(wwwroot), content))
  }

  /** An edit link disappears with its text. */
  lemma EditLinkExample()
    ensures RemoveEditFrom(ExampleEditLink, 0) == ""
  {
    var s := ExampleEditLink;
    assert At(s, 0, EditOpen);
    ExampleAttrEnd();
    ExampleAnchorEnd();
    assert EditMatchAt(s, 0) == Some(36);
  }

  const ExampleEditLink: Text := "<a href=\"edit.php?pageid=5\">Edit</a>"

  lemma ExampleAttrEnd()
    ensures FindLazy(ExampleEditLink, 17, AttrEnd) == Some(26)
  {
    var s := ExampleEditLink;
    forall m | 17 <= m < 26 ensures !At(s, m, AttrEnd) && InLine(s, m) {
      assert s[m] != AttrEnd[0];
    }
    FindLazyFirst(s, 17, AttrEnd, 26);
  }

  lemma ExampleAnchorEnd()
    ensures FindLazy(ExampleEditLink, 28, AnchorEnd) == Some(32)
  {
    var s := ExampleEditLink;
    forall m | 28 <= m < 32 ensures !At(s, m, AnchorEnd) && InLine(s, m) {
      assert s[m] != AnchorEnd[0];
    }
    FindLazyFirst(s, 28, AnchorEnd, 32);
  }
}

=== FILE: page_links.dfy ===
/**
 * What `process_wiki_page_links` does to a whole rendered page with any
 * number of links. The page is a sequence of links, each with the text
 * before it, followed by a tail. Links go to pages that the user may or
 * may not see.
 *
 * Two facts make the page's pieces independent of each other:
 * - a view URL holds no `"`, `<` or `>`;
 * - every join between pieces stands next to one of those characters.
 * So `str_replace` and the collapse pass work piece by piece. The one
 * collision left is between ids where one is a prefix of another; pages
 * whose ids are free of that are what is proved here.
 */
module PageLinks {
  import opened Strings
  import opened LinkRewriter

  /** One link of the page: the text before it, the linked page's id and the anchor's text. */
  datatype Link = Link(before: Text, pageId: Text, text: Text)

  /** A character a URL printed into an attribute does not hold. */
  predicate UrlSafe(w: Text) {
    '"' !in w && '<' !in w && '>' !in w
  }

  /** What the view URL before the page id looks like: long, URL-safe, ending in `=`. */
  predicate ViewBase(base: Text) {
    |base| > |Placeholder| && base[|base| - 1] == '=' && UrlSafe(base)
  }

  /** What stands in the anchor's `href`: the view URL, or the placeholder once the page is denied. */
  function Target(base: Text, id: Text, hidden: set<Text>): Text {
    if id in hidden then Placeholder else base + id
  }

  /** One link as the wiki renders it, followed by `rest`. */
  function Segment(l: Link, base: Text, hidden: set<Text>, rest: Text): Text {
    l.before + (HrefOpen + (Target(base, l.pageId, hidden) + (AttrEnd + (l.text + (AnchorEnd + rest)))))
  }

  /** The page, with the links to the pages in `hidden` already neutralised. */
  function PageText(links: seq<Link>, tail: Text, base: Text, hidden: set<Text>): Text
    decreases |links|
  {
    if links == [] then tail
    else Segment(links[0], base, hidden, PageText(links[1..], tail, base, hidden))
  }

  /** What the user is meant to see of one link: the anchor if they may view the page, otherwise its text. */
  function ShownLink(l: Link, base: Text, v: Viewer, rest: Text): Text {
    if Viewable(v, l.pageId) then Segment(l, base, {}, rest) else l.before + (l.text + rest)
  }

  /** What the user is meant to see of the page. */
  function Shown(links: seq<Link>, tail: Text, base: Text, v: Viewer): Text
    decreases |links|
  {
    if links == [] then tail
    else ShownLink(links[0], base, v, Shown(links[1..], tail, base, v))
  }

  /** Plain page text: no view URL and no placeholder anchor starts in it. */
  predicate Plain(p: Text, base: Text) {
    forall k :: 0 <= k < |p| ==> !At(p, k, base) && !At(p, k, PlaceholderOpen)
  }

  /** An anchor text the collapse pattern takes whole: one line without `</a>`. */
  predicate LinkText(t: Text) {
    '\n' !in t && forall k :: 0 <= k < |t| ==> !At(t, k, AnchorEnd)
  }

  predicate PlainLink(l: Link, base: Text) {
    IsId(l.pageId) && Plain(l.before, base) && Plain(l.text, base) && LinkText(l.text)
  }

  /** Every link has a numeric id, and the text around the anchors is plain. */
  predicate WellFormed(links: seq<Link>, tail: Text, base: Text) {
    Plain(tail, base) && forall i :: 0 <= i < |links| ==> PlainLink(links[i], base)
  }

  /** No link's id is a prefix of another link's id. */
  predicate PrefixFreeFor(x: Text, links: seq<Link>) {
    forall j :: 0 <= j < |links| && x <= links[j].pageId ==> x == links[j].pageId
  }

  /** No id on the page is a proper prefix of another: `1` and `12` are not linked together. */
  predicate PrefixFree(links: seq<Link>) {
    forall i :: 0 <= i < |links| ==> PrefixFreeFor(links[i].pageId, links)
  }

  /** The links' page ids, in page order. */
  function LinkIds(links: seq<Link>): (ids: seq<Text>)
    ensures |ids| == |links| && forall k :: 0 <= k < |links| ==> ids[k] == links[k].pageId
    decreases |links|
  {
    if links == [] then [] else [links[0].pageId] + LinkIds(links[1..])
  }

  function Ids(ms: seq<UrlMatch>): set<Text> {
    set m | m in ms :: m.pageId
  }

  /** The ids the loop of `process_wiki_page_links` replaces, in match order. */
  function Denied(ms: seq<UrlMatch>, v: Viewer): set<Text>
    decreases |ms|
  {
    if ms == [] then {}
    else (if Viewable(v, ms[0].pageId) then {} else {ms[0].pageId}) + Denied(ms[1..], v)
  }

  // ---------------------------------------------------------------------
  // Facts about the pieces
  // ---------------------------------------------------------------------

  /** `moodle_url` of a URL-safe site root gives a view URL of that shape. */
  lemma ViewBaseShape(wwwroot: Text)
    requires UrlSafe(wwwroot)
    ensures ViewBase(WikiViewBase(wwwroot))
  {
    var tail: Text := "/" + ViewUrl;
    assert UrlSafe(tail);
    assert WikiViewBase(wwwroot) == wwwroot + tail;
  }

  /** A view URL of a page holds none of the characters next to the joins. */
  lemma UrlChars(base: Text, x: Text)
    requires ViewBase(base) && IsId(x)
    ensures UrlSafe(base + x) && |base + x| > |Placeholder|
  {
    assert forall c :: c in x ==> IsDigit(c);
  }

  /** Plain text holds no view URL of any page. */
  lemma PlainKept(p: Text, base: Text, x: Text, r: Text)
    requires Plain(p, base)
    ensures ReplaceAll(p, base + x, r) == p
  {
    var f := base + x;
    forall k | 0 <= k < |p| ensures !At(p, k, f) {
      if k + |f| <= |p| {
        assert !At(p, k, base);
        assert p[k..k + |base|] != base;
        assert p[k..k + |f|][..|base|] == p[k..k + |base|];
        assert f[..|base|] == base;
        assert p[k..k + |f|][..|base|] != f[..|base|];
      }
    }
    ReplaceAbsent(p, f, r);
  }

  /** The `href` of a link becomes the placeholder when its page is the one replaced. */
  lemma TargetReplaced(base: Text, id: Text, hidden: set<Text>, x: Text)
    requires ViewBase(base) && IsId(id) && IsId(x)
    requires x <= id ==> x == id
    ensures ReplaceAll(Target(base, id, hidden), base + x, Placeholder) == Target(base, id, hidden + {x})
  {
    if id in hidden {
      ReplaceShort(Placeholder, base + x, Placeholder);
    } else {
      ReplaceUrl(base, id, x, Placeholder);
    }
  }

  /** `str_replace` of page `x`'s URL works on one link piece by piece. */
  lemma SegmentReplaced(l: Link, base: Text, hidden: set<Text>, x: Text, rest: Text, rest': Text)
    requires ViewBase(base) && IsId(x) && PlainLink(l, base)
    requires x <= l.pageId ==> x == l.pageId
    requires ReplaceAll(rest, base + x, Placeholder) == rest'
    ensures ReplaceAll(Segment(l, base, hidden, rest), base + x, Placeholder) == Segment(l, base, hidden + {x}, rest')
  {
    var f := base + x;
    var p := Placeholder;
    UrlChars(base, x);
    var e := AnchorEnd + rest;
    ReplaceCut(AnchorEnd, rest, f, p, '>');
    ReplaceShort(AnchorEnd, f, p);
    var d := l.text + e;
    ReplaceCut(l.text, e, f, p, '<');
    PlainKept(l.text, base, x, p);
    var c := AttrEnd + d;
    ReplaceCut(AttrEnd, d, f, p, '>');
    ReplaceShort(AttrEnd, f, p);
    var u := Target(base, l.pageId, hidden);
    ReplaceCut(u, c, f, p, '"');
    TargetReplaced(base, l.pageId, hidden, x);
    var b := u + c;
    ReplaceCut(HrefOpen, b, f, p, '"');
    ReplaceShort(HrefOpen, f, p);
    ReplaceCut(l.before, HrefOpen + b, f, p, '<');
    PlainKept(l.before, base, x, p);
  }

  lemma WellFormedTail(links: seq<Link>, tail: Text, base: Text)
    requires links != [] && WellFormed(links, tail, base)
    ensures WellFormed(links[1..], tail, base) && PlainLink(links[0], base)
  {
    forall i | 0 <= i < |links| - 1 ensures PlainLink(links[1..][i], base) {
      assert links[1..][i] == links[i + 1];
    }
  }

  /**
   * `str_replace` of the URL of page `x` over the whole page neutralises
   * exactly the links to `x`, when no other id on the page has `x` as a
   * prefix.
   */
  lemma {:induction false} ReplaceInPage(links: seq<Link>, tail: Text, base: Text, hidden: set<Text>, x: Text)
    requires ViewBase(base) && IsId(x) && WellFormed(links, tail, base) && PrefixFreeFor(x, links)
    ensures ReplaceAll(PageText(links, tail, base, hidden), base + x, Placeholder) == PageText(links, tail, base, hidden + {x})
    decreases |links|
  {
    if links == [] {
      PlainKept(tail, base, x, Placeholder);
    } else {
      WellFormedTail(links, tail, base);
      assert PrefixFreeFor(x, links[1..]) by {
        forall j | 0 <= j < |links| - 1 ensures links[1..][j] == links[j + 1] {
        }
      }
      ReplaceInPage(links[1..], tail, base, hidden, x);
      SegmentReplaced(links[0], base, hidden, x, PageText(links[1..], tail, base, hidden), PageText(links[1..], tail, base, hidden + {x}));
    }
  }

  /** The loop of `process_wiki_page_links` neutralises the links to exactly the denied matches. */
  lemma {:induction false} NeutraliseInPage(links: seq<Link>, tail: Text, base: Text, hidden: set<Text>, ms: seq<UrlMatch>, v: Viewer)
    requires ViewBase(base) && WellFormed(links, tail, base)
    requires forall m :: m in ms ==> IsId(m.pageId) && PrefixFreeFor(m.pageId, links)
    ensures Neutralise(PageText(links, tail, base, hidden), ms, base, v) == PageText(links, tail, base, hidden + Denied(ms, v))
    decreases |ms|
  {
    if ms == [] {
      assert hidden + {} == hidden;
    } else {
      var x := ms[0].pageId;
      assert ms[0] in ms;
      assert forall m :: m in ms[1..] ==> m in ms;
      if Viewable(v, x) {
        NeutraliseInPage(links, tail, base, hidden, ms[1..], v);
        assert Denied(ms, v) == Denied(ms[1..], v);
      } else {
        ReplaceInPage(links, tail, base, hidden, x);
        NeutraliseInPage(links, tail, base, hidden + {x}, ms[1..], v);
        assert hidden + {x} + Denied(ms[1..], v) == hidden + Denied(ms, v);
      }
    }
  }

  /** A page is denied by the loop exactly when it is matched and the user may not view it. */
  lemma {:induction false} DeniedIds(ms: seq<UrlMatch>, v: Viewer)
    ensures forall x :: x in Denied(ms, v) <==> x in Ids(ms) && !Viewable(v, x)
    decreases |ms|
  {
    if ms != [] {
      DeniedIds(ms[1..], v);
      assert forall m :: m in ms <==> m == ms[0] || m in ms[1..];
      assert Ids(ms) == {ms[0].pageId} + Ids(ms[1..]);
    }
  }

  /** The collapse pass turns each neutralised link into its text and keeps the others. */
  lemma SegmentCollapsed(l: Link, base: Text, hidden: set<Text>, v: Viewer, rest: Text, shown: Text)
    requires ViewBase(base) && PlainLink(l, base)
    requires l.pageId in hidden <==> !Viewable(v, l.pageId)
    requires Collapse(rest) == shown
    ensures Collapse(Segment(l, base, hidden, rest)) == ShownLink(l, base, v, shown)
  {
    var d := l.text + (AnchorEnd + rest);
    var c := AttrEnd + d;
    var u := Target(base, l.pageId, hidden);
    var a := HrefOpen + (u + c);
    assert a[0] == '<';
    CollapseFront(l.before, a);
    if l.pageId in hidden {
      PlaceholderAnchorForm();
      Regroup4(HrefOpen, Placeholder, AttrEnd, d);
      CollapseNeutralised(l.text, rest);
    } else {
      UrlChars(base, l.pageId);
      assert (u + c)[|Placeholder|] in u;
      CollapseHref(u + c);
      CollapseKeep(u, c);
      assert '<' !in AttrEnd;
      CollapseKeep(AttrEnd, d);
      assert (AnchorEnd + rest)[0] == '<';
      CollapseFront(l.text, AnchorEnd + rest);
      CollapseAnchorEnd(rest);
    }
  }

  lemma {:induction false} CollapsePage(links: seq<Link>, tail: Text, base: Text, hidden: set<Text>, v: Viewer)
    requires ViewBase(base) && WellFormed(links, tail, base)
    requires forall i :: 0 <= i < |links| ==> (links[i].pageId in hidden <==> !Viewable(v, links[i].pageId))
    ensures Collapse(PageText(links, tail, base, hidden)) == Shown(links, tail, base, v)
    decreases |links|
  {
    if links == [] {
      CollapseAbsent(tail);
    } else {
      WellFormedTail(links, tail, base);
      assert forall i :: 0 <= i < |links| - 1 ==> links[1..][i] == links[i + 1];
      CollapsePage(links[1..], tail, base, hidden, v);
      SegmentCollapsed(links[0], base, hidden, v, PageText(links[1..], tail, base, hidden), Shown(links[1..], tail, base, v));
    }
  }

  /** After the URL of a link, `preg_match_all` finds nothing before the next link. */
  lemma AnchorRestMatches(t: Text, base: Text, rest: Text)
    requires ViewBase(base) && Plain(t, base)
    ensures MatchIds(AttrEnd + (t + (AnchorEnd + rest)), base) == MatchIds(rest, base)
  {
    var e := AnchorEnd + rest;
    MatchCut(AnchorEnd, rest, base, '>');
    MatchShort(AnchorEnd, base);
    var d := t + e;
    MatchCut(t, e, base, '<');
    MatchAbsent(t, base);
    MatchCut(AttrEnd, d, base, '>');
    MatchShort(AttrEnd, base);
  }

  /** `preg_match_all` finds one match in a link: its page's id. */
  lemma SegmentMatches(l: Link, base: Text, rest: Text)
    requires ViewBase(base) && PlainLink(l, base)
    ensures MatchIds(Segment(l, base, {}, rest), base) == [l.pageId] + MatchIds(rest, base)
  {
    var c := AttrEnd + (l.text + (AnchorEnd + rest));
    AnchorRestMatches(l.text, base, rest);
    var u := base + l.pageId;
    assert Target(base, l.pageId, {}) == u;
    MatchCut(u, c, base, '"');
    MatchUrl(base, l.pageId);
    MatchCut(HrefOpen, u + c, base, '"');
    MatchShort(HrefOpen, base);
    MatchCut(l.before, HrefOpen + (u + c), base, '<');
    MatchAbsent(l.before, base);
  }

  /** On a well-formed page `preg_match_all` finds exactly the links' ids, in page order. */
  lemma {:induction false} PageMatches(links: seq<Link>, tail: Text, base: Text)
    requires ViewBase(base) && WellFormed(links, tail, base)
    ensures PageIds(MatchesFrom(PageText(links, tail, base, {}), base, 0)) == LinkIds(links)
  {
    var content := PageText(links, tail, base, {});
    MatchesIds(content, base, 0);
    assert content[0..] == content;
    PageMatchIds(links, tail, base);
  }

  lemma {:induction false} PageMatchIds(links: seq<Link>, tail: Text, base: Text)
    requires ViewBase(base) && WellFormed(links, tail, base)
    ensures MatchIds(PageText(links, tail, base, {}), base) == LinkIds(links)
    decreases |links|
  {
    if links == [] {
      MatchAbsent(tail, base);
    } else {
      WellFormedTail(links, tail, base);
      PageMatchIds(links[1..], tail, base);
      SegmentMatches(links[0], base, PageText(links[1..], tail, base, {}));
    }
  }

  /**
   * `process_wiki_page_links` on a page with any number of links: each
   * link to a page the user may see is kept as it is, and each other link
   * becomes its text.
   *
   * Hypotheses: the site root is URL-safe; the text around the anchors is
   * plain; each anchor text is one line without `</a>`; and no id is a
   * prefix of another.
   */
  lemma PageProcessed(v: Viewer, wwwroot: Text, links: seq<Link>, tail: Text)
    requires UrlSafe(wwwroot) && WellFormed(links, tail, WikiViewBase(wwwroot)) && PrefixFree(links)
    ensures ProcessedContent(v, WikiViewBase(wwwroot), PageText(links, tail, WikiViewBase(wwwroot), {})) == Shown(links, tail, WikiViewBase(wwwroot), v)
  {
    var base := WikiViewBase(wwwroot);
    var content := PageText(links, tail, base, {});
    var ms := MatchesFrom(content, base, 0);
    ViewBaseShape(wwwroot);
    PageMatches(links, tail, base);
    forall m | m in ms ensures IsId(m.pageId) && PrefixFreeFor(m.pageId, links) {
      var k :| 0 <= k < |ms| && ms[k] == m;
      assert PageIds(ms)[k] == links[k].pageId;
    }
    NeutraliseInPage(links, tail, base, {}, ms, v);
    assert {} + Denied(ms, v) == Denied(ms, v);
    DeniedIds(ms, v);
    forall i | 0 <= i < |links| ensures links[i].pageId in Denied(ms, v) <==> !Viewable(v, links[i].pageId) {
      assert PageIds(ms)[i] == links[i].pageId;
      assert ms[i] in ms;
    }
    CollapsePage(links, tail, base, Denied(ms, v), v);
  }
}

=== FILE: page_tags.dfy ===
/**
 * The tag collection loop of `get_wiki_pages_tags` (lib.php): each page's
 * tag array (tag id to tag name, in the order the tag API returns it) is
 * folded into the result with PHP's array `+=`, which keeps the keys
 * already present, with their values and their order, and appends the new
 * keys of the right operand in its order. The page list and each page's
 * tag array are inputs.
 */
module PageTags {
  import opened Strings

  /** A PHP array with string keys: its (key, value) pairs in iteration order. */
  type Pairs = seq<(Text, Text)>

  function Keys(a: Pairs): seq<Text> {
    seq(|a|, i requires 0 <= i < |a| => a[i].0)
  }

  /** No key occurs twice, as in every PHP array. */
  predicate UniqueKeys(a: Pairs) {
    forall i, j :: 0 <= i < j < |a| ==> a[i].0 != a[j].0
  }

  /** The pairs of `b` whose key `a` does not have, in the order of `b`. */
  function Fresh(a: Pairs, b: Pairs): Pairs
    decreases |b|
  {
    if b == [] then []
    else (if b[0].0 in Keys(a) then [] else [b[0]]) + Fresh(a, b[1..])
  }

  /** PHP's `$a + $b` on arrays: `$a` as it is, then the pairs of `$b` with a new key. */
  function LeftUnion(a: Pairs, b: Pairs): (r: Pairs)
    ensures |a| <= |r| && r[..|a|] == a
  {
    a + Fresh(a, b)
  }

  lemma KeysAppend(x: Pairs, y: Pairs)
    ensures Keys(x + y) == Keys(x) + Keys(y)
  {
  }

  /** The new pairs of a concatenation are those of each part, in order: `+` keeps the right operand's order. */
  lemma {:induction false} FreshAppend(a: Pairs, b1: Pairs, b2: Pairs)
    ensures Fresh(a, b1 + b2) == Fresh(a, b1) + Fresh(a, b2)
    decreases |b1|
  {
    if b1 == [] {
      assert b1 + b2 == b2;
    } else {
      assert (b1 + b2)[1..] == b1[1..] + b2;
      FreshAppend(a, b1[1..], b2);
    }
  }

  lemma {:induction false} FreshKeys(a: Pairs, b: Pairs)
    ensures forall k :: k in Keys(Fresh(a, b)) <==> k in Keys(b) && k !in Keys(a)
    decreases |b|
  {
    if b != [] {
      FreshKeys(a, b[1..]);
      var head := if b[0].0 in Keys(a) then [] else [b[0]];
      assert Fresh(a, b) == head + Fresh(a, b[1..]);
      assert Keys(head) == if b[0].0 in Keys(a) then [] else [b[0].0];
      KeysAppend(head, Fresh(a, b[1..]));
      assert Keys(b) == [b[0].0] + Keys(b[1..]);
    }
  }

  lemma {:induction false} FreshMembers(a: Pairs, b: Pairs)
    ensures forall p :: p in Fresh(a, b) <==> p in b && p.0 !in Keys(a)
    decreases |b|
  {
    if b != [] {
      FreshMembers(a, b[1..]);
      assert b == [b[0]] + b[1..];
    }
  }

  lemma {:induction false} FreshUnique(a: Pairs, b: Pairs)
    requires UniqueKeys(b)
    ensures UniqueKeys(Fresh(a, b))
    decreases |b|
  {
    if b != [] {
      var rest := b[1..];
      assert UniqueKeys(rest) by {
        forall i, j | 0 <= i < j < |rest| ensures rest[i].0 != rest[j].0 {
          assert rest[i] == b[i + 1] && rest[j] == b[j + 1];
        }
      }
      FreshUnique(a, rest);
      FreshKeys(a, rest);
      assert b[0].0 !in Keys(rest) by {
        forall i | 0 <= i < |rest| ensures Keys(rest)[i] != b[0].0 {
          assert rest[i] == b[i + 1];
        }
      }
      var head := if b[0].0 in Keys(a) then [] else [b[0]];
      UniqueAppend(head, Fresh(a, rest));
    }
  }

  /** Two arrays without a common key concatenate into an array. */
  lemma UniqueAppend(x: Pairs, y: Pairs)
    requires UniqueKeys(x) && UniqueKeys(y)
    requires forall k :: k in Keys(x) ==> k !in Keys(y)
    ensures UniqueKeys(x + y)
  {
    var r := x + y;
    forall i, j | 0 <= i < j < |r| ensures r[i].0 != r[j].0 {
      if j < |x| {
        assert r[i] == x[i] && r[j] == x[j];
      } else if i >= |x| {
        assert r[i] == y[i - |x|] && r[j] == y[j - |x|];
      } else {
        assert Keys(x)[i] == r[i].0 && Keys(x)[i] in Keys(x);
        assert Keys(y)[j - |x|] == r[j].0 && Keys(y)[j - |x|] in Keys(y);
      }
    }
  }

  /** `$a + $b` has every key of both operands and no other. */
  lemma LeftUnionKeys(a: Pairs, b: Pairs)
    ensures forall k :: k in Keys(LeftUnion(a, b)) <==> k in Keys(a) || k in Keys(b)
  {
    KeysAppend(a, Fresh(a, b));
    FreshKeys(a, b);
  }

  /** A pair of `$a + $b` is a pair of `$a`, or a pair of `$b` whose key `$a` lacks: the left value wins. */
  lemma LeftUnionMembers(a: Pairs, b: Pairs)
    ensures forall p :: p in LeftUnion(a, b) <==> p in a || (p in b && p.0 !in Keys(a))
  {
    FreshMembers(a, b);
  }

  /** `$a + $b` of two arrays is an array again. */
  lemma LeftUnionUnique(a: Pairs, b: Pairs)
    requires UniqueKeys(a) && UniqueKeys(b)
    ensures UniqueKeys(LeftUnion(a, b))
  {
    FreshUnique(a, b);
    FreshKeys(a, b);
    UniqueAppend(a, Fresh(a, b));
  }

  /** `$wikipagestags` after the loop has gone through `pages`. */
  function Collected(pages: seq<Pairs>): Pairs
    decreases |pages|
  {
    if pages == [] then [] else LeftUnion(Collected(pages[..|pages| - 1]), pages[|pages| - 1])
  }

  /** The tags of the first `n` pages come first, as they were after `n` rounds. */
  lemma {:induction false} CollectedPrefix(pages: seq<Pairs>, n: nat)
    requires n <= |pages|
    ensures |Collected(pages[..n])| <= |Collected(pages)|
    ensures Collected(pages)[..|Collected(pages[..n])|] == Collected(pages[..n])
    decreases |pages|
  {
    if n < |pages| {
      var init := pages[..|pages| - 1];
      CollectedPrefix(init, n);
      assert init[..n] == pages[..n];
    } else {
      assert pages[..n] == pages;
    }
  }

  /** Every tag of every page is collected, and nothing else. */
  lemma {:induction false} CollectedKeys(pages: seq<Pairs>)
    ensures forall k :: k in Keys(Collected(pages)) <==> exists i :: 0 <= i < |pages| && k in Keys(pages[i])
    decreases |pages|
  {
    if pages != [] {
      var init := pages[..|pages| - 1];
      CollectedKeys(init);
      LeftUnionKeys(Collected(init), pages[|pages| - 1]);
      forall k ensures k in Keys(Collected(pages)) <==> exists i :: 0 <= i < |pages| && k in Keys(pages[i]) {
        if exists i :: 0 <= i < |pages| && k in Keys(pages[i]) {
          var i :| 0 <= i < |pages| && k in Keys(pages[i]);
          if i < |pages| - 1 {
            assert init[i] == pages[i];
          }
        }
        if exists i :: 0 <= i < |init| && k in Keys(init[i]) {
          var i :| 0 <= i < |init| && k in Keys(init[i]);
          assert init[i] == pages[i];
        }
      }
    }
  }

  /** Collecting arrays gives an array. */
  lemma {:induction false} CollectedUnique(pages: seq<Pairs>)
    requires forall i :: 0 <= i < |pages| ==> UniqueKeys(pages[i])
    ensures UniqueKeys(Collected(pages))
    decreases |pages|
  {
    if pages != [] {
      var init := pages[..|pages| - 1];
      assert forall i :: 0 <= i < |init| ==> init[i] == pages[i];
      CollectedUnique(init);
      LeftUnionUnique(Collected(init), pages[|pages| - 1]);
    }
  }

  /** A tag goes in with its name on the first page that has it. */
  lemma {:induction false} CollectedFirst(pages: seq<Pairs>, i: nat, p: (Text, Text))
    requires i < |pages| && p in pages[i]
    requires forall j :: 0 <= j < i ==> p.0 !in Keys(pages[j])
    ensures p in Collected(pages)
    decreases |pages|
  {
    var init := pages[..|pages| - 1];
    LeftUnionMembers(Collected(init), pages[|pages| - 1]);
    if i < |pages| - 1 {
      assert init[i] == pages[i];
      assert forall j :: 0 <= j < i ==> init[j] == pages[j];
      CollectedFirst(init, i, p);
    } else {
      forall j | 0 <= j < |init| ensures p.0 !in Keys(init[j]) {
        assert init[j] == pages[j];
      }
      NotCollected(init, p.0);
    }
  }

  lemma NotCollected(pages: seq<Pairs>, k: Text)
    requires forall j :: 0 <= j < |pages| ==> k !in Keys(pages[j])
    ensures k !in Keys(Collected(pages))
  {
    CollectedKeys(pages);
  }

  /** Every collected pair comes from the first page that has its tag. */
  lemma {:induction false} CollectedFrom(pages: seq<Pairs>, p: (Text, Text))
    requires p in Collected(pages)
    ensures exists i :: 0 <= i < |pages| && p in pages[i] && forall j :: 0 <= j < i ==> p.0 !in Keys(pages[j])
    decreases |pages|
  {
    var init := pages[..|pages| - 1];
    var last := pages[|pages| - 1];
    LeftUnionMembers(Collected(init), last);
    if p in Collected(init) {
      CollectedFrom(init, p);
      var i :| 0 <= i < |init| && p in init[i] && forall j :: 0 <= j < i ==> p.0 !in Keys(init[j]);
      assert init[i] == pages[i];
      assert forall j :: 0 <= j < i ==> init[j] == pages[j];
    } else {
      CollectedKeys(init);
      assert forall j :: 0 <= j < |init| ==> init[j] == pages[j];
      assert p in pages[|pages| - 1];
    }
  }

  /** One page's tags come back as they are, in their order (the unit test's case). */
  lemma OnePage(page: Pairs)
    ensures Collected([page]) == page
  {
    assert [page][..0] == [];
    FreshMembers([], page);
    NothingIsFresh(page);
  }

  lemma {:induction false} NothingIsFresh(b: Pairs)
    ensures Fresh([], b) == b
    decreases |b|
  {
    if b != [] {
      NothingIsFresh(b[1..]);
      assert b == [b[0]] + b[1..];
    }
  }

  /** The `foreach` of `get_wiki_pages_tags` with its `+=`. */
  method CollectPagesTags(pages: seq<Pairs>) returns (tags: Pairs)
    ensures tags == Collected(pages)
    ensures forall k :: k in Keys(tags) <==> exists i :: 0 <= i < |pages| && k in Keys(pages[i])
  {
    tags := [];
    var n := 0;
    while n < |pages|
      invariant 0 <= n <= |pages|
      invariant tags == Collected(pages[..n])
    {
      assert pages[..n + 1][..n] == pages[..n];
      tags := tags + Fresh(tags, pages[n]);
      n := n + 1;
    }
    assert pages[..n] == pages;
    CollectedKeys(pages);
  }
}

=== FILE: permission.dfy ===
/**
 * The permission evaluator of lib.php (`can_user_view_wiki_page`). The
 * host lookups it makes are parameters: whether the user is a site admin,
 * the user's role ids in the course (in the order the host returns them),
 * the instance's grouped associations and the page's tag ids.
 */
module Permission {
  import opened Strings
  import opened AssociationStore

  /** `!empty(array_intersect(a, b))`. */
  predicate Intersects(a: seq<Text>, b: seq<Text>) {
    exists x :: x in a && x in b
  }

  /** One of the user's roles has a grouped entry sharing a tag id with the page. */
  predicate RoleGrants(roleId: Text, grouped: map<Text, Text>, pageTags: seq<Text>) {
    roleId in grouped && Intersects(Split(grouped[roleId], ','), pageTags)
  }

  /** The decision `can_user_view_wiki_page` reaches. */
  predicate CanView(isAdmin: bool, roles: seq<Text>, grouped: map<Text, Text>, pageTags: seq<Text>) {
    isAdmin || exists i :: 0 <= i < |roles| && RoleGrants(roles[i], grouped, pageTags)
  }

  /**
   * `can_user_view_wiki_page`: a site admin sees everything; anyone else
   * needs one role whose grouped tag list shares a tag id with the page.
   * The loop stops at the first such role.
   */
  method CanUserViewWikiPage(isAdmin: bool, roles: seq<Text>, grouped: map<Text, Text>, pageTags: seq<Text>)
    returns (canView: bool)
    ensures canView == CanView(isAdmin, roles, grouped, pageTags)
    ensures isAdmin ==> canView
    ensures !isAdmin && (grouped == map[] || pageTags == []) ==> !canView
  {
    canView := false;
    if isAdmin {
      canView := true;
    } else {
      var i := 0;
      while i < |roles|
        invariant 0 <= i <= |roles|
        invariant !canView
        invariant forall k :: 0 <= k < i ==> !RoleGrants(roles[k], grouped, pageTags)
      {
        if roles[i] in grouped {
          var roleTags := Split(grouped[roles[i]], ',');
          if Intersects(roleTags, pageTags) {
            canView := true;
            break;
          }
        }
        i := i + 1;
      }
    }
  }

  /** A stored row that links `roleId` to one of the page's tags in instance `id`. */
  predicate Grants(e: Entry, id: nat, roleId: Text, pageTags: seq<Text>) {
    e.wikifilterId == id && e.roleId == roleId && e.tagId in pageTags
  }

  lemma RoleGrantsIff(c: seq<Entry>, id: nat, roleId: Text, pageTags: seq<Text>)
    requires forall e :: e in c ==> ',' !in e.tagId
    ensures RoleGrants(roleId, Grouped(c, id), pageTags) <==> exists e :: e in c && Grants(e, id, roleId, pageTags)
  {
    var g := Grouped(c, id);
    if roleId in g {
      GroupedRoundTrip(c, id, roleId);
      OfInstanceMembers(c, id);
      var tags := TagsOfRole(OfInstance(c, id), roleId);
      if RoleGrants(roleId, g, pageTags) {
        var t :| t in tags && t in pageTags;
        var e :| e in OfInstance(c, id) && e.roleId == roleId && e.tagId == t;
        assert Grants(e, id, roleId, pageTags);
      }
      if exists e :: e in c && Grants(e, id, roleId, pageTags) {
        var e :| e in c && Grants(e, id, roleId, pageTags);
        assert e in OfInstance(c, id);
        assert e.tagId in tags;
      }
    }
  }

  /**
   * For stored tag ids without commas: the user sees the page iff they are
   * admin or some role of theirs has a row of this instance naming one of
   * the page's tags.
   */
  lemma CanViewIffSharedTag(c: seq<Entry>, id: nat, isAdmin: bool, roles: seq<Text>, pageTags: seq<Text>)
    requires forall e :: e in c ==> ',' !in e.tagId
    ensures CanView(isAdmin, roles, Grouped(c, id), pageTags) <==>
      isAdmin || exists i, e :: 0 <= i < |roles| && e in c && Grants(e, id, roles[i], pageTags)
  {
    forall i | 0 <= i < |roles|
      ensures RoleGrants(roles[i], Grouped(c, id), pageTags) <==> exists e :: e in c && Grants(e, id, roles[i], pageTags)
    {
      RoleGrantsIff(c, id, roles[i], pageTags);
    }
  }

  /** An instance without rows hides every page from every non-admin. */
  lemma NoAssociationsDenies(c: seq<Entry>, id: nat, roles: seq<Text>, pageTags: seq<Text>)
    requires forall e :: e in c ==> e.wikifilterId != id
    ensures Grouped(c, id) == map[]
    ensures !CanView(false, roles, Grouped(c, id), pageTags)
  {
  }

  /**
   * The unit test's scenario: instance 7 links the teacher role (3) with
   * the page's two tags (1, 2). An admin and the teacher see the page; the
   * student role (5) does not.
   */
  lemma TeacherStudentScenario()
    ensures var stored := Replace([], 7, 4, [Token("3", "1"), Token("3", "2")]);
      && CanView(true, [], Grouped(stored, 7), ["1", "2"])
      && CanView(false, ["3"], Grouped(stored, 7), ["1", "2"])
      && !CanView(false, ["5"], Grouped(stored, 7), ["1", "2"])
  {
    ScenarioStored();
    ScenarioTeacher();
    ScenarioStudent();
  }

  lemma ScenarioTeacher()
    ensures CanView(false, ["3"], Grouped([Entry("3", "1", 4, 7), Entry("3", "2", 4, 7)], 7), ["1", "2"])
  {
    var stored := [Entry("3", "1", 4, 7), Entry("3", "2", 4, 7)];
    var roles := ["3"];
    CanViewIffSharedTag(stored, 7, false, roles, ["1", "2"]);
    assert stored[0] in stored && Grants(stored[0], 7, roles[0], ["1", "2"]);
  }

  lemma ScenarioStudent()
    ensures !CanView(false, ["5"], Grouped([Entry("3", "1", 4, 7), Entry("3", "2", 4, 7)], 7), ["1", "2"])
  {
    var stored := [Entry("3", "1", 4, 7), Entry("3", "2", 4, 7)];
    CanViewIffSharedTag(stored, 7, false, ["5"], ["1", "2"]);
    forall e | e in stored ensures e.roleId != "5" {
      assert e.roleId == "3";
    }
  }

  /** The rows the scenario's save stores. */
  lemma ScenarioStored()
    ensures Replace([], 7, 4, [Token("3", "1"), Token("3", "2")]) == [Entry("3", "1", 4, 7), Entry("3", "2", 4, 7)]
  {
    var pairs := [("3", "1"), ("3", "2")];
    assert Tokens(pairs) == [Token("3", "1"), Token("3", "2")];
    InsertedTokens(pairs, 7, 4);
    assert OtherInstances([], 7) == [];
  }
}

=== FILE: strings.dfy ===
/**
 * Text helpers shared by the server-side model: PHP's `explode` and
 * `implode` (and SQL's GROUP_CONCAT) on a one-character separator, and
 * decimal identifiers with the number they denote.
 */
module Strings {

  type Text = seq<char>

  predicate IsDigit(c: char) {
    '0' <= c <= '9'
  }

  /** A decimal identifier as it appears in a token, a URL or a SQL result. */
  predicate IsId(s: Text) {
    |s| > 0 && forall i :: 0 <= i < |s| ==> IsDigit(s[i])
  }

  /** A decimal id as the database prints it: no leading zero unless the id is `0`. */
  predicate IsCanonicalId(s: Text) {
    IsId(s) && (|s| > 1 ==> s[0] != '0')
  }

  /** The number a text of decimal digits denotes. */
  function Value(s: Text): nat
    requires forall i :: 0 <= i < |s| ==> IsDigit(s[i])
    decreases |s|
  {
    if s == [] then 0
    else
      assert IsDigit(s[|s| - 1]);
      10 * Value(s[..|s| - 1]) + (s[|s| - 1] as int - '0' as int)
  }

  /** The decimal text of the number a text of digits denotes: leading zeros dropped. */
  function DropZeros(s: Text): (r: Text)
    requires IsId(s)
    ensures IsCanonicalId(r) && Value(r) == Value(s)
    ensures IsCanonicalId(s) ==> r == s
    decreases |s|
  {
    if |s| > 1 && s[0] == '0' then
      LeadingZero(s[1..]);
      assert s == ['0'] + s[1..];
      DropZeros(s[1..])
    else s
  }

  /** A leading zero does not change the number. */
  lemma {:induction false} LeadingZero(t: Text)
    requires forall i :: 0 <= i < |t| ==> IsDigit(t[i])
    ensures Value(['0'] + t) == Value(t)
    decreases |t|
  {
    if t != [] {
      var u := ['0'] + t;
      assert u[..|u| - 1] == ['0'] + t[..|t| - 1];
      LeadingZero(t[..|t| - 1]);
    }
  }

  /**
   * `explode(sep, s)`: the pieces between separators, in order. Like PHP it
   * never returns an empty list: the empty text gives one empty piece.
   */
  function Split(s: Text, sep: char): (parts: seq<Text>)
    ensures |parts| >= 1
    decreases |s|
  {
    if |s| == 0 then [""]
    else
      var rest := Split(s[1..], sep);
      if s[0] == sep then [""] + rest
      else [[s[0]] + rest[0]] + rest[1..]
  }

  /** No piece holds the separator, and a text without one is a single piece. */
  lemma {:induction false} SplitPieces(s: Text, sep: char)
    ensures forall i :: 0 <= i < |Split(s, sep)| ==> sep !in Split(s, sep)[i]
    ensures sep !in s ==> Split(s, sep) == [s]
    ensures sep in s ==> |Split(s, sep)| >= 2
    decreases |s|
  {
    if |s| > 0 {
      SplitPieces(s[1..], sep);
      assert s == [s[0]] + s[1..];
      if s[0] != sep {
        var rest := Split(s[1..], sep);
        assert sep !in s ==> s == [s[0]] + rest[0];
      }
    }
  }

  /** `implode(sep, parts)`, also the shape of a GROUP_CONCAT value. */
  function Join(parts: seq<Text>, sep: char): (s: Text)
    decreases |parts|
  {
    if |parts| == 0 then ""
    else if |parts| == 1 then parts[0]
    else parts[0] + [sep] + Join(parts[1..], sep)
  }

  lemma SplitCons(c: char, t: Text, sep: char)
    requires c != sep
    ensures Split([c] + t, sep) == [[c] + Split(t, sep)[0]] + Split(t, sep)[1..]
  {
    assert ([c] + t)[0] == c && ([c] + t)[1..] == t;
  }

  /** Splitting text that begins with a separator-free piece `a`. */
  lemma {:induction false} SplitPrefix(a: Text, rest: Text, sep: char)
    requires sep !in a
    ensures Split(a + rest, sep) == [a + Split(rest, sep)[0]] + Split(rest, sep)[1..]
    decreases |a|
  {
    if |a| > 0 {
      var parts := Split(rest, sep);
      assert sep !in a[1..] by { assert forall x :: x in a[1..] ==> x in a; }
      SplitPrefix(a[1..], rest, sep);
      assert a + rest == [a[0]] + (a[1..] + rest);
      SplitCons(a[0], a[1..] + rest, sep);
      var r := Split(a[1..] + rest, sep);
      assert r[0] == a[1..] + parts[0];
      assert r[1..] == parts[1..];
      assert [a[0]] + (a[1..] + parts[0]) == a + parts[0];
    } else {
      var parts := Split(rest, sep);
      assert a + rest == rest;
      assert a + parts[0] == parts[0];
      assert parts == [parts[0]] + parts[1..];
    }
  }

  /** Exploding an imploded list gives the list back when no piece holds the separator. */
  lemma {:induction false} SplitJoin(parts: seq<Text>, sep: char)
    requires |parts| >= 1
    requires forall i :: 0 <= i < |parts| ==> sep !in parts[i]
    ensures Split(Join(parts, sep), sep) == parts
    decreases |parts|
  {
    if |parts| == 1 {
      SplitPrefix(parts[0], "", sep);
      assert parts[0] + "" == parts[0];
    } else {
      var tail := Join(parts[1..], sep);
      SplitJoin(parts[1..], sep);
      assert Split([sep] + tail, sep) == [""] + parts[1..];
      SplitPrefix(parts[0], [sep] + tail, sep);
      assert parts[0] + [sep] + tail == parts[0] + ([sep] + tail);
      assert parts[0] + "" == parts[0];
      assert parts == [parts[0]] + parts[1..];
    }
  }

  /** Imploding an exploded text gives the text back. */
  lemma {:induction false} JoinSplit(s: Text, sep: char)
    ensures Join(Split(s, sep), sep) == s
    decreases |s|
  {
    if |s| > 0 {
      var rest := Split(s[1..], sep);
      JoinSplit(s[1..], sep);
      if s[0] == sep {
        assert Join([""] + rest, sep) == "" + [sep] + Join(rest, sep);
        assert s == [s[0]] + s[1..];
      } else {
        var parts := [[s[0]] + rest[0]] + rest[1..];
        if |rest| == 1 {
          assert Join(parts, sep) == [s[0]] + rest[0];
        } else {
          assert parts[1..] == rest[1..];
          assert Join(rest, sep) == rest[0] + [sep] + Join(rest[1..], sep);
          assert Join(parts, sep) == [s[0]] + rest[0] + [sep] + Join(rest[1..], sep);
        }
        assert s == [s[0]] + s[1..];
      }
    }
  }
}

=== FILE: wrappers.dfy ===
/**
 * The optional value the modules share: PHP's null, a pattern that does
 * not match, a DOM lookup that finds nothing.
 */
module Wrappers {
  datatype Option<T> = None | Some(value: T)
}
